=== FILE: README.md ===
# API gateway control plane: backend conversion and admin handlers

This project is a Dafny model of the control plane of a small Go API gateway. It proves properties of the model. The control plane has two parts:

- **Backend conversion** (`backend/backend.go`). An admin backend description (`type`, `metadata`, `timeout`, `interval`, `retrynum`) is turned into a live backend:
  - a health-check descriptor is built from the optional duration strings;
  - the type tag is looked up in the builder registry;
  - the registered factory runs with the descriptor in its context;
  - the descriptor is attached to what the factory built.

  The batch form stops at the first failure. Two builders are built in:
  - `group` resolves an existing backend group of the route's host;
  - `http` validates its metadata and wraps an HTTP backend in a QPS limiter.

  `NewForwarder` replaces a zero timeout with the configured default.
- **Admin handlers** (`handler.go`). Each handler is a pure function from a gateway state and a decoded request to a new state and a response (`Reply`). The state holds:
  - per-host group managers, each mapping a group name to a group of backends;
  - routes (host, path, method), each owning a forwarder with its backends.

  The handlers validate the request, convert backends before touching the state, and branch on empty and non-empty lists. `sendError` maps library errors to 400 or 500.

The gateway library the handlers call (`lb.DefaultGateway`, its group managers, forwarders and route table) is invisible from this code. It is modelled as abstract state (module `Gateway`). It has only the calls the handlers make, with the minimal behaviour those calls need:
- a route lookup fails with the empty-path, no-host or no-route sentinel, in that order;
- reading, adding or removing a route's backends fails only when that lookup fails, with the lookup's sentinel. So `sendError`'s 500 branch (`handler.go:71-72`) is never reached from the route-backend handlers;
- registering a duplicate route fails;
- registering the first route of a host creates that host's group manager;
- a backend pool tells members apart by the backend's `String()` (its identity), so adding a backend whose identity is already a member changes nothing, and removing an absent identity changes nothing;
- deleting a group by name only removes it from its host's manager, and forwarders that hold the group are left as they are. Their fate is decided inside the library, which these handlers cannot see.

Collaborators that are not reimplemented are parameters of the model, fields of `Foreign.Env`. Every property holds for all of them. They are:
- duration parsing and formatting;
- metadata decoding for the `http` builder;
- the failure of the HTTP backend constructor;
- the backend `Type`/`MetaData` accessors;
- the backend `String()` that names a live backend (a function of its endpoint and descriptor);
- the route's name;
- the default forwarder timeout.

Modules: `Results` (Option/Result, the stop-at-first-failure `MapAll` and `Fold`), `Types`, `Pool` (a backend list keyed by identity), `Gateway`, `Foreign`, `Backend`, `Admin` (responses, `SendError`, rendering), `GroupHandlers`, `RouteHandlers`, `Invariants`.

Points where the code's behaviour is easy to misread:

- The `group` builder only looks up an existing group. It fails when the group is absent, and it neither creates the group nor registers the forwarder as an updater (`backend/backend.go:131-137`). A missing group is an error, not created on demand.
- The group handlers are not all-or-nothing. Entries processed before a failing one keep their effect (`handler.go:200-210`, `handler.go:232-242`). There is no rollback.
- Deleting a group by name does not look at the forwarders that reference it (`handler.go:233-234`). Under the library assumption above, those forwarders keep a reference to a group that is gone. `GroupHandlers.DeleteBackendGroupLeavesReferences` shows this.
- `DelDomainRoute` reports every unregister error as a 400 carrying the library error; it does not go through `sendError` (`handler.go:320-322`).

## Model

| member | source | states |
|---|---|---|
| Backend.NewForwarder | backend/backend.go:49-61 | a zero max timeout becomes the configured default, any other value is kept; the forwarder has the given name and no backends |
| Backend.HealthCheckOf | backend/backend.go:79-89 | RetryNum is copied; an empty Interval/Timeout gives 0, a non-empty one its parsed value; an Interval parse error is reported before a Timeout parse error |
| Backend.Convert | backend/backend.go:78-105 | duration errors come before the registry lookup, and an unknown tag comes before any factory; a success is exactly the registered factory's endpoint paired with the descriptor the factory was given and named by `String()` of the two; when the durations parse, the tag is registered and the factory succeeds, the conversion succeeds with that backend |
| Backend.UnknownTypeAfterDurations | backend/backend.go:80-104 | an unregistered tag with a bad duration fails with the duration error (interval first), and with the unknown-type error only when both durations parse |
| Backend.ConvertUsesOnlyItsFactory | backend/backend.go:91-104 | only the factory registered under the backend's own tag influences the conversion; no other factory is consulted |
| Backend.ConvertAll | backend/backend.go:111-120 | success iff every element converts; then same length and element i is the conversion of input i |
| Backend.ConvertAllReportsFirstFailure | backend/backend.go:114-117 | a failing batch fails with the error of its first failing element |
| Backend.ConvertAllIgnoresRest | backend/backend.go:114-117 | elements after the first failure are never converted: appending to a failing batch does not change its outcome |
| Backend.StringField | backend/backend.go:124 | the group name is present only when the metadata holds a string under `name` |
| Backend.GroupFactory | backend/backend.go:123-138 | fails in order on missing/non-string name, empty name, unknown host, absent group; a success is a reference to an existing group of the route's own host, never a new group; an existing group of that host is always resolved |
| Backend.ProbeConfig | backend/backend.go:153-176 | the HTTP configuration carries the context's descriptor, and a probe URL exactly when `checkurl` is non-empty |
| Backend.HttpFactory | backend/backend.go:140-183 | decoding errors first, then a missing url; after those, a constructor error is returned as is, and otherwise the result is the QPS wrapper (with the request's qps) around the HTTP backend built from method, url and a configuration carrying the context's descriptor |
| Backend.HttpConversionCarriesDescriptor | backend/backend.go:78-183 | converting an `http` backend with the built-in builders yields the QPS-wrapped HTTP backend of its metadata, whose configuration carries the same descriptor the live backend holds |
| Backend.Builtins | backend/backend.go:122-184 | the registry initialisation installs exactly the `group` and `http` builders, and each behaves as its builder function on every input |
| Backend.BuiltinsAreWellBehaved | backend/backend.go:123-183 | the built-in builders read only the group managers, and every group they return exists on the route's own host |
| Backend.ConvertAllSameGroups | backend/backend.go:111-120 | with builders that read only group managers, conversion does not depend on the route table |
| Backend.ConvertAllResolvesGroups | backend/backend.go:111-138 | with builders that resolve only existing groups, every converted group backend names an existing group of the route's host |
| Results.MapAll | backend/backend.go:111-120 | the convert-each-or-return-the-error loop: success iff every element succeeds, index-wise correspondence on success |
| Results.MapAllFirstFailure | backend/backend.go:114-117 | the loop's error is that of the first failing element |
| Results.MapAllIgnoresRest | backend/backend.go:114-117 | the loop returns at the first failure without looking further |
| Results.MapAllCongruent | backend/backend.go:114-117 | the loop's outcome depends only on the results for the list's elements |
| Results.MapAllConcat | backend/backend.go:111-120 | converting a concatenation of two convertible lists concatenates the results |
| Results.FoldAppend | handler.go:200-210 | a handler loop over a concatenation runs the first part, then the second from where the first stopped |
| Results.FoldStopsAt | handler.go:200-210 | when entry k is the first to fail, the loop ends in the state entries 0..k-1 produced, with entry k's error |
| Results.FoldPreserves | handler.go:232-242 | a property every successful loop step keeps holds of the loop's final state, even after an early stop |
| Results.FoldCompletes | handler.go:200-210 | the loop runs to the end iff every entry's step succeeds on the state the earlier entries left |
| Results.FoldSplitAt | handler.go:200-210 | in a loop that runs to the end, entry k succeeds on the state entries 0..k-1 left, and the loop continues from its result |
| Pool.Attach | handler.go:207-209 | adding a backend adds its identity, keeps the existing members and order, and adds nothing else |
| Pool.AttachAll | handler.go:308 | adding a list adds exactly its identities and keeps the existing members as a prefix |
| Pool.Detach | handler.go:238-240 | removing an identity drops exactly its members; removing an absent one changes nothing |
| Pool.DetachAll | handler.go:409 | removing a list keeps exactly the members whose identity it does not name |
| Pool.DetachAllUndoesAttachAll | handler.go:386-409 | removing the backends just added to an empty list empties it again |
| Pool.AttachAllIdempotent | handler.go:386 | adding the same backends twice is the same as adding them once |
| Pool.AttachAllKnown | handler.go:386 | adding backends whose identities are already members changes nothing |
| Pool.AttachAllFresh | handler.go:308 | distinct new backends are appended in the given order |
| Gateway.GetBackendGroupManager | handler.go:131-134 | a host has a manager exactly when it is known |
| Gateway.AddOrNewGroup | handler.go:206 | the named group exists afterwards, with no members and no updaters if it was new; other groups are unchanged |
| Gateway.DelGroupByName | handler.go:234 | the name is gone afterwards and every other group is unchanged; an absent name changes nothing |
| Gateway.LookupRoute | handler.go:61-74 | a route reference is valid iff path non-empty, host known and triple registered; otherwise it fails with one of the three sentinels sendError recognises |
| Gateway.RegisterRoute | handler.go:304-306 | fails iff the path is empty or the triple is taken; otherwise installs the forwarder and, on the host's first route, creates its manager empty |
| Gateway.UnregisterRoute | handler.go:320-322 | fails with the lookup error, otherwise removes exactly that route |
| Gateway.GetRouteBackends | handler.go:337-340 | fails with the lookup error, otherwise returns the forwarder's backends |
| Gateway.AddRouteBackends | handler.go:386 | fails with the lookup error, otherwise changes only that route's forwarder |
| Gateway.DelRouteBackends | handler.go:409 | fails with the lookup error, otherwise changes only that route's forwarder |
| Admin.SendError | handler.go:61-74 | no error is success; ErrNoHost, ErrNoRoute and ErrEmptyPath are 400 with their messages; every other error is 500 with that error |
| Admin.Describe | handler.go:153-170 | Type, Metadata and RetryNum are copied; Interval and Timeout are rendered only when positive and are empty otherwise |
| Admin.DescribeAll | handler.go:342-362 | the rendering has the input's length and order, element i rendering backend i |
| Admin.DescribedDescriptorParses | handler.go:155-170 | posting a listed backend back yields its descriptor, with non-positive durations read back as zero |
| Admin.ConvertThenDescribe | handler.go:342-362 | a converted backend with non-negative durations is listed with the descriptor it was converted with |
| GroupHandlers.GetBackendGroup | handler.go:122-180 | 400 for an unknown host or group; an empty group query lists the host's group names; an existing group of a known host is always shown, listing every member in order plus its forwarders |
| GroupHandlers.CreateStep | handler.go:200-210 | one entry: a conversion failure is the step's error; otherwise the named group exists afterwards with the converted identities added, its old members kept as a prefix, nothing added but the converted backends themselves, its updaters kept, and other groups unchanged |
| GroupHandlers.CreateBackendGroup | handler.go:182-213 | an unknown host is 400 with nothing changed; for a known host the reply is 200 iff every entry converts against the state the earlier entries left; only the request host's manager can change, and routes never do |
| GroupHandlers.FoldAddsNames | handler.go:200-210 | a run of steps that each add their entry's name ends with the old names plus all the entries' names |
| GroupHandlers.CreateBackendGroupNamesAll | handler.go:200-210 | a successful create leaves exactly the old group names plus every requested name |
| GroupHandlers.CreateThenListGroups | handler.go:136-143 | after a successful create, the group listing shows the old names and every requested name |
| GroupHandlers.CreateBackendGroupNoRollback | handler.go:200-210 | if entry k is the first to fail, the reply is 400 with its error, and the state is what entries 0..k-1 produced: earlier groups stay created or extended, group k is untouched |
| GroupHandlers.CreateBackendGroupHoldsConverted | handler.go:200-210 | after a 200 create, every entry's group exists and holds the identity of every backend that entry converted to |
| GroupHandlers.FoldKeepsUnnamed | handler.go:200-210 | a handler loop whose steps touch only their own entry's group leaves a group no entry names as it was, present or absent |
| GroupHandlers.CreateBackendGroupKeepsUnnamed | handler.go:200-210 | a create request, whatever its reply, leaves every group no entry names exactly as it was |
| GroupHandlers.CreateBackendGroupKeepsMembers | handler.go:206-209 | a create request never removes a group or a member: each old group's members stay a prefix of its list |
| GroupHandlers.CreatedBeforeOnlyAdds | handler.go:200-210 | after the first j entries of a create, every member was there before or is a backend one of those entries converted to |
| GroupHandlers.CreateBackendGroupOnlyAdds | handler.go:200-210 | whatever the reply, a create adds nothing but converted backends: every member afterwards was there before or was converted by some entry, against the groups the entries before it left |
| GroupHandlers.DeleteStep | handler.go:232-242 | an entry without backends deletes the group by name; otherwise a conversion failure is the step's error, an absent group is skipped, an existing one loses exactly the converted identities |
| GroupHandlers.DeleteBackendGroup | handler.go:215-245 | an unknown host is 400 with nothing changed; for a known host the reply is 200 iff every entry with backends converts against the state the earlier entries left; only the request host's manager can change, and routes never do |
| GroupHandlers.DeleteBackendGroupOnlyShrinks | handler.go:232-242 | deletion never creates a group |
| GroupHandlers.DeleteBackendGroupNoRollback | handler.go:232-242 | if entry k is the first to fail conversion, the reply is 400 with its error, and what entries 0..k-1 removed stays removed |
| GroupHandlers.DeleteBackendGroupRemovesNamed | handler.go:232-234 | after a 200 delete, a group named by an entry without backends is gone |
| GroupHandlers.DeleteBackendGroupRemovesConverted | handler.go:235-241 | after a 200 delete, a group named by an entry with backends, if it still exists, holds none of the identities that entry converted to |
| GroupHandlers.DeleteBackendGroupKeepsUnnamed | handler.go:232-242 | a delete request, whatever its reply, leaves every group no entry names exactly as it was |
| GroupHandlers.DeleteBackendGroupOnlyRemoves | handler.go:232-242 | a delete request never adds anything: every group and member present afterwards was there before |
| GroupHandlers.DeleteThenShowGroup | handler.go:233-234 | after a delete by name, showing that group is refused as unknown |
| GroupHandlers.DeleteBackendGroupLeavesReferences | handler.go:232-234 | deleting a group a forwarder still holds succeeds, and with the library's delete leaving forwarders alone, the forwarder's reference names a group that is gone |
| RouteHandlers.AddDomainRoute | handler.go:286-310 | path or method missing, conversion failure and duplicate route are each 400 with the gateway unchanged; on success the new forwarder has the route's name, the default timeout and exactly the converted backends, and no other route or host manager changes; a new host's manager starts empty |
| RouteHandlers.AddDomainRouteKeepsOrder | handler.go:303-308 | with distinct converted backends, the new forwarder holds them in request order |
| RouteHandlers.AddDomainRouteTwice | handler.go:304-306 | registering the same route again is refused and changes nothing |
| RouteHandlers.DelDomainRoute | handler.go:312-325 | path or method missing is 400; any unregister error is 400 with that error and nothing changes; success removes exactly that route |
| RouteHandlers.AddThenDelDomainRoute | handler.go:286-325 | registering a route on a known host and then unregistering it restores the gateway |
| RouteHandlers.GetAllDomainRouteBackends | handler.go:327-365 | library errors go through sendError; on success the listing renders the forwarder's backends in order |
| RouteHandlers.AddThenListRouteBackends | handler.go:286-365 | after a route is registered with distinct backends, listing its backends renders exactly the converted backends in request order |
| RouteHandlers.AddDomainRouteBackend | handler.go:367-388 | 200 iff the list is empty, or it converts and the route exists; an empty list changes nothing; a conversion error is 400 with nothing changed; library errors go through sendError; a non-empty success changes only that forwarder, which keeps its members and gains exactly the converted identities |
| RouteHandlers.DelDomainRouteBackend | handler.go:390-411 | 200 iff the list is empty, or it converts and the route exists; an empty list changes nothing; a conversion error is 400 with nothing changed; library errors go through sendError; a non-empty success changes only that forwarder, which keeps exactly the members whose identity was not named |
| RouteHandlers.AddThenDelRouteBackends | handler.go:367-411 | adding a list of backends to a route with none and then deleting the same list restores the gateway |
| Invariants.CreateBackendGroupKeepsConsistent | handler.go:182-213 | creating groups keeps every route's host known and every group reference resolving |
| Invariants.DeleteBackendGroupKeepsHosts | handler.go:215-245 | deleting groups keeps every route's host known |
| Invariants.DeleteBackendGroupMembersKeepsConsistent | handler.go:235-241 | a delete request that names backends in every entry keeps every group reference resolving |
| Invariants.AddDomainRouteKeepsConsistent | handler.go:286-310 | with the built-in kind of builders, registering a route keeps hosts known and group references resolving |
| Invariants.DelDomainRouteKeepsConsistent | handler.go:312-325 | unregistering a route keeps both invariants |
| Invariants.AddDomainRouteBackendKeepsConsistent | handler.go:367-388 | with the built-in kind of builders, adding route backends keeps both invariants |
| Invariants.DelDomainRouteBackendKeepsConsistent | handler.go:390-411 | removing route backends keeps both invariants |

## Left out

- Process start-up, configuration and the HTTP server (`main.go`), and plugin, middleware and service-discovery loading (`plugin.go`, `init_dll.go`). These are I/O, foreign code and concurrency.
- The liveness-probe closure of the `http` builder (`backend/backend.go:155-169`): it is network I/O. Only whether a probe URL is configured is modelled.
- The introspection handlers (`GetAllUnderlyingHosts`, `GetAllUnderlyingRoutes`, `GetAllUnderlyingEndpoints`): they only snapshot library state.
- `GetAllDomains`, `CreateDomain`, `DeleteDomain` and `GetAllDomainRoutes`: host management lives in the library, and these handlers only forward to it.
- Request binding and its validation tags (including `hostname_rfc1123`): each handler takes an already decoded request, or its binding error.
- RouteHandlers.GetAllDomainRouteBackends, RouteHandlers.AddDomainRouteBackend, RouteHandlers.DelDomainRouteBackend: the `required` tags on Path and Method (`handler.go:330-331`, `handler.go:370-371`, `handler.go:393-394`) make binding refuse an empty path or method with 400. These handlers take any decoded request, so a request with an empty path or method reaches the library lookup, and an empty backend list is answered 200. A request that binding refuses is only its `Failure` case.
- GroupHandlers.CreateBackendGroup, GroupHandlers.DeleteBackendGroup: the `required` tag on each entry's Name (`handler.go:186`, `handler.go:219`) makes binding refuse an empty group name with 400. The model takes any decoded request, so an entry named `""` creates or deletes a group of that name. `GetBackendGroup` can never show such a group, because an empty group query lists the names instead.
- `time.ParseDuration`, `Duration.String`, `mapstructure.Decode`, `backend.NewHTTPBackend`, the backend `Type`/`MetaData` accessors, `Route.Name` and `DefaultForwarderMaxTimeout` are parameters (`Foreign.Env`), not reimplementations.
- The library's internals (routing, load balancing, sessions, the health checker, updater and reference-count tracking) and all locking. Group `updaters` are only read.
- The global health checker `HC` that `NewForwarder` installs, and the forwarder's session-manager hook: both belong to the load balancer.
- The partial slice `Backends.Backends` returns beside an error: every caller discards it.
- `UserData` in the HTTP builder's configuration: nothing in the core sets it.
- JSON numbers in metadata are `real`. Values that are neither strings, numbers, booleans nor null are one opaque case.
- GroupHandlers.GetBackendGroup: the group names are a set, because the library decides their order.
- Invariants.DeleteBackendGroupKeepsHosts: group references are not claimed to keep resolving, because a delete by name can leave them dangling (`GroupHandlers.DeleteBackendGroupLeavesReferences`).
- Pool identity: two live backends are the same member exactly when their `String()` agree. That function belongs to the library and is a parameter, so which backends collide is not modelled.
- Invariants.CreateBackendGroupKeepsConsistent: group references are (host, name) pairs. A forwarder that still holds a deleted group counts as resolving again once a group of the same name is created. The Go forwarder keeps the deleted group object itself, which is not modelled.

=== FILE: admin.dfy ===
/**
  What every admin handler shares: the response classes, the mapping of
  gateway errors to them (sendError), and the rendering of live backends
  back into the admin's backend description.
 */
module Admin {
  import opened Results
  import opened Types
  import opened Gateway
  import opened Foreign
  import opened Backend

  /** Why a request was refused with 400 Bad Request. */
  datatype Reason =
    | Because(err: Error)                                    // ship.ErrBadRequest.New(err)
    | NoHostNamed(host: string)                              // "no host '%s'"
    | NoRouteNamed(route: Route)                             // "no route: host=…, path=…, method=…"
    | EmptyPathGiven                                         // "the path must not be empty"
    | MissingPathOrMethod                                    // "missing path or method"
    | NoGroupNamed(name: string)                             // "no backend group named '%s'"

  /** The 200 responses' bodies. Group names are listed as a set: their order is the library's. */
  datatype Body =
    | NoContent
    | GroupNames(names: set<string>)
    | GroupDetail(backends: seq<BackendSpec>, forwarders: seq<string>)
    | RouteBackends(backends: seq<BackendSpec>)

  datatype Response =
    | Ok(body: Body)
    | BadRequest(reason: Reason)
    | InternalServerError(cause: Error)

  /** A handler's effect: the gateway afterwards and what the caller receives. */
  datatype Reply = Reply(gw: Gateway, response: Response)

  /** The sentinel errors of the library that sendError reports as the client's fault. */
  predicate IsClientSentinel(e: Error)
  {
    e == ErrNoHost || e == ErrNoRoute || e == ErrEmptyPath
  }

  /** adminController.sendError: no error is success, the three sentinels are 400, anything else is 500. */
  function SendError(route: Route, err: Option<Error>): (r: Response)
    ensures r == Ok(NoContent) <==> err.None?
    ensures r.BadRequest? <==> err.Some? && IsClientSentinel(err.value)
    ensures r.InternalServerError? <==> err.Some? && !IsClientSentinel(err.value)
    ensures r.InternalServerError? ==> r.cause == err.value
    ensures err == Some(ErrNoHost) ==> r.reason == NoHostNamed(route.host)
    ensures err == Some(ErrNoRoute) ==> r.reason == NoRouteNamed(route)
    ensures err == Some(ErrEmptyPath) ==> r.reason == EmptyPathGiven
  {
    match err
    case None => Ok(NoContent)
    case Some(e) =>
      if e == ErrNoHost then BadRequest(NoHostNamed(route.host))
      else if e == ErrNoRoute then BadRequest(NoRouteNamed(route))
      else if e == ErrEmptyPath then BadRequest(EmptyPathGiven)
      else InternalServerError(e)
  }

  /** A duration as the listing shows it: only a positive one is written out. */
  function ShowDuration(env: Env, d: Duration): string
  {
    if d > 0 then env.formatDuration(d) else ""
  }

  /** One iteration of the rendering loops: a live backend as an admin backend description. */
  function Describe(env: Env, b: LiveBackend): (s: BackendSpec)
    ensures s.kind == env.typeOf(b) && s.metadata == env.metadataOf(b)
    ensures s.retryNum == b.healthCheck.retryNum
    ensures b.healthCheck.interval <= 0 ==> s.interval == ""
    ensures b.healthCheck.timeout <= 0 ==> s.timeout == ""
    ensures b.healthCheck.interval > 0 ==> s.interval == env.formatDuration(b.healthCheck.interval)
    ensures b.healthCheck.timeout > 0 ==> s.timeout == env.formatDuration(b.healthCheck.timeout)
  {
    BackendSpec(
      env.typeOf(b), env.metadataOf(b),
      ShowDuration(env, b.healthCheck.timeout),
      ShowDuration(env, b.healthCheck.interval),
      b.healthCheck.retryNum)
  }

  /** The rendering loops: same length, same order, one description per backend. */
  function DescribeAll(env: Env, bs: seq<LiveBackend>): (r: seq<BackendSpec>)
    ensures |r| == |bs|
    ensures forall i :: 0 <= i < |bs| ==> r[i] == Describe(env, bs[i])
  {
    seq(|bs|, i requires 0 <= i < |bs| => Describe(env, bs[i]))
  }

  /** Duration formatting that parsing reads back (time.Duration.String and time.ParseDuration agree). */
  ghost predicate FormatParses(env: Env)
  {
    forall d: Duration :: d > 0 ==> env.formatDuration(d) != "" && env.parseDuration(env.formatDuration(d)) == Success(d)
  }

  /**
    Posting a listed backend back reproduces its descriptor, except that a
    non-positive duration comes back as zero (it is listed as "").
   */
  lemma DescribedDescriptorParses(env: Env, b: LiveBackend)
    requires FormatParses(env)
    ensures HealthCheckOf(env, Describe(env, b)) ==
            Success(HealthCheck(
              if b.healthCheck.interval > 0 then b.healthCheck.interval else 0,
              if b.healthCheck.timeout > 0 then b.healthCheck.timeout else 0,
              b.healthCheck.retryNum))
  {
    var s := Describe(env, b);
    assert OptionalDuration(env, s.interval).Success?;
    assert OptionalDuration(env, s.timeout).Success?;
  }

  /**
    A backend converted with non-negative durations lists as a description
    whose descriptor is the one it was converted with.
   */
  lemma ConvertThenDescribe(env: Env, reg: Registry, gw: Gateway, spec: BackendSpec, route: Route)
    requires FormatParses(env)
    requires Convert(env, reg, gw, spec, route).Success?
    requires Convert(env, reg, gw, spec, route).value.healthCheck.interval >= 0
    requires Convert(env, reg, gw, spec, route).value.healthCheck.timeout >= 0
    ensures Describe(env, Convert(env, reg, gw, spec, route).value).retryNum == spec.retryNum
    ensures HealthCheckOf(env, Describe(env, Convert(env, reg, gw, spec, route).value)) == HealthCheckOf(env, spec)
  {
    DescribedDescriptorParses(env, Convert(env, reg, gw, spec, route).value);
  }
}

=== FILE: backend.dfy ===
/**
  The backend package: turning an admin backend description into a live
  backend through the builder registry, the two built-in builders, and the
  forwarder constructor with its default timeout.
 */
module Backend {
  import opened Results
  import opened Types
  import opened Gateway
  import opened Foreign

  /** backend.Backend: one backend as the admin API receives and returns it. */
  datatype BackendSpec = BackendSpec(
    kind: string,         // the builder's type tag, JSON "type"
    metadata: Metadata,
    timeout: string,      // a duration string, or "" when not given
    interval: string,     // a duration string, or "" when not given
    retryNum: int
  )

  /** backend.BuilderContext: what a builder is given (the route's host is `route.host`). */
  datatype BuilderContext = BuilderContext(route: Route, metadata: Metadata, healthCheck: HealthCheck)

  /**
    A builder's factory. The gateway argument is the state the factory may
    consult (the `group` builder reads lb.DefaultGateway); a factory cannot
    change it.
   */
  type Factory = (Gateway, BuilderContext) -> Result<Endpoint, Error>

  /** The builder registry: type tag to factory. */
  type Registry = map<string, Factory>

  /** NewForwarder: a fresh forwarder with no backends; a zero timeout means the configured default. */
  function NewForwarder(env: Env, name: string, maxTimeout: Duration): (f: Forwarder)
    ensures maxTimeout != 0 ==> f.maxTimeout == maxTimeout
    ensures maxTimeout == 0 ==> f.maxTimeout == env.defaultMaxTimeout
    ensures f.name == name && f.backends == []
  {
    Forwarder(name, if maxTimeout == 0 then env.defaultMaxTimeout else maxTimeout, [])
  }

  /** An optional duration string: "" is "not given" and reads as zero. */
  function OptionalDuration(env: Env, s: string): Result<Duration, Error>
  {
    if s == "" then Success(0) else env.parseDuration(s)
  }

  /** The health-check descriptor of Backend.Backend: interval parsed first, then timeout. */
  function HealthCheckOf(env: Env, b: BackendSpec): (r: Result<HealthCheck, Error>)
    ensures r.Success? ==> r.value.retryNum == b.retryNum
    ensures r.Success? && b.interval == "" ==> r.value.interval == 0
    ensures r.Success? && b.timeout == "" ==> r.value.timeout == 0
    ensures r.Success? && b.interval != "" ==> env.parseDuration(b.interval) == Success(r.value.interval)
    ensures r.Success? && b.timeout != "" ==> env.parseDuration(b.timeout) == Success(r.value.timeout)
    ensures r.Failure? <==> OptionalDuration(env, b.interval).Failure? || OptionalDuration(env, b.timeout).Failure?
    ensures b.interval != "" && env.parseDuration(b.interval).Failure? ==>
              r == Failure(env.parseDuration(b.interval).error)
    ensures b.timeout != "" && env.parseDuration(b.timeout).Failure? && OptionalDuration(env, b.interval).Success? ==>
              r == Failure(env.parseDuration(b.timeout).error)
  {
    match OptionalDuration(env, b.interval)
    case Failure(e) => Failure(e)
    case Success(interval) =>
      match OptionalDuration(env, b.timeout)
      case Failure(e) => Failure(e)
      case Success(timeout) => Success(HealthCheck(interval, timeout, b.retryNum))
  }

  /**
    Backend.Backend: build the descriptor, look the type tag up, run its
    factory with the descriptor in the context, and attach the descriptor to
    what the factory built.
   */
  function Convert(env: Env, reg: Registry, gw: Gateway, b: BackendSpec, route: Route): (r: Result<LiveBackend, Error>)
    // a success is exactly what the registered factory built from this descriptor
    ensures r.Success? ==>
              && HealthCheckOf(env, b) == Success(r.value.healthCheck)
              && b.kind in reg
              && reg[b.kind](gw, BuilderContext(route, b.metadata, r.value.healthCheck)) == Success(r.value.endpoint)
              && r.value.id == env.backendString(r.value.endpoint, r.value.healthCheck)
    // and whenever the descriptor parses and the registered factory builds something, the conversion succeeds with it
    ensures HealthCheckOf(env, b).Success? && b.kind in reg &&
            reg[b.kind](gw, BuilderContext(route, b.metadata, HealthCheckOf(env, b).value)).Success? ==>
              var hc := HealthCheckOf(env, b).value;
              var ep := reg[b.kind](gw, BuilderContext(route, b.metadata, hc)).value;
              r == Success(LiveBackend(ep, hc, env.backendString(ep, hc)))
    // error precedence: durations, then the lookup, then the factory
    ensures HealthCheckOf(env, b).Failure? ==> r == Failure(HealthCheckOf(env, b).error)
    ensures HealthCheckOf(env, b).Success? && b.kind !in reg ==> r == Failure(UnknownBackendType(b.kind))
    ensures HealthCheckOf(env, b).Success? && b.kind in reg &&
            reg[b.kind](gw, BuilderContext(route, b.metadata, HealthCheckOf(env, b).value)).Failure? ==>
              r == Failure(reg[b.kind](gw, BuilderContext(route, b.metadata, HealthCheckOf(env, b).value)).error)
  {
    match HealthCheckOf(env, b)
    case Failure(e) => Failure(e)
    case Success(hc) =>
      if b.kind !in reg then Failure(UnknownBackendType(b.kind))
      else
        match reg[b.kind](gw, BuilderContext(route, b.metadata, hc))
        case Failure(e) => Failure(e)
        case Success(endpoint) => Success(LiveBackend(endpoint, hc, env.backendString(endpoint, hc)))
  }

  /**
    Backends.Backends: converts in list order and stops at the first failure.
    (The partially filled slice Go returns beside the error is discarded by
    every caller and is not modelled.)
   */
  function ConvertAll(env: Env, reg: Registry, gw: Gateway, bs: seq<BackendSpec>, route: Route)
    : (r: Result<seq<LiveBackend>, Error>)
    ensures r.Success? <==> forall i :: 0 <= i < |bs| ==> Convert(env, reg, gw, bs[i], route).Success?
    ensures r.Success? ==> |r.value| == |bs|
    ensures r.Success? ==> forall i :: 0 <= i < |bs| ==> Convert(env, reg, gw, bs[i], route) == Success(r.value[i])
  {
    MapAll(b => Convert(env, reg, gw, b, route), bs)
  }

  /** The batch conversion fails with the error of its first failing element. */
  lemma ConvertAllReportsFirstFailure(
    env: Env, reg: Registry, gw: Gateway, bs: seq<BackendSpec>, route: Route, k: nat)
    requires k < |bs|
    requires Convert(env, reg, gw, bs[k], route).Failure?
    requires forall j :: 0 <= j < k ==> Convert(env, reg, gw, bs[j], route).Success?
    ensures ConvertAll(env, reg, gw, bs, route) == Failure(Convert(env, reg, gw, bs[k], route).error)
  {
    MapAllFirstFailure(b => Convert(env, reg, gw, b, route), bs, k);
  }

  /** Nothing after the first failure is converted: extending a failing batch does not change its outcome. */
  lemma ConvertAllIgnoresRest(
    env: Env, reg: Registry, gw: Gateway, xs: seq<BackendSpec>, ys: seq<BackendSpec>, route: Route)
    requires ConvertAll(env, reg, gw, xs, route).Failure?
    ensures ConvertAll(env, reg, gw, xs + ys, route) == ConvertAll(env, reg, gw, xs, route)
  {
    MapAllIgnoresRest(b => Convert(env, reg, gw, b, route), xs, ys);
  }

  /**
    Only the factory registered under the backend's own tag matters: two
    registries that agree on that tag convert it identically; in particular
    an unregistered tag fails the same way whatever else is registered.
   */
  lemma ConvertUsesOnlyItsFactory(
    env: Env, reg1: Registry, reg2: Registry, gw: Gateway, b: BackendSpec, route: Route)
    requires b.kind in reg1 <==> b.kind in reg2
    requires b.kind in reg1 ==> reg1[b.kind] == reg2[b.kind]
    ensures Convert(env, reg1, gw, b, route) == Convert(env, reg2, gw, b, route)
  {
  }

  /** An unregistered tag is reported only after both durations parsed. */
  lemma UnknownTypeAfterDurations(env: Env, reg: Registry, gw: Gateway, b: BackendSpec, route: Route)
    requires b.kind !in reg
    ensures Convert(env, reg, gw, b, route).Failure?
    ensures OptionalDuration(env, b.interval).Failure? ==>
              Convert(env, reg, gw, b, route).error == OptionalDuration(env, b.interval).error
    ensures OptionalDuration(env, b.interval).Success? && OptionalDuration(env, b.timeout).Failure? ==>
              Convert(env, reg, gw, b, route).error == OptionalDuration(env, b.timeout).error
    ensures OptionalDuration(env, b.interval).Success? && OptionalDuration(env, b.timeout).Success? ==>
              Convert(env, reg, gw, b, route).error == UnknownBackendType(b.kind)
  {
  }

  /** The group name as the builder's `.(string)` assertion sees it: absent unless a string is stored. */
  function StringField(md: Metadata, key: string): (r: Option<string>)
    ensures r.Some? <==> key in md && md[key].VString?
    ensures r.Some? ==> md[key] == VString(r.value)
  {
    if key in md && md[key].VString? then Some(md[key].s) else None
  }

  /**
    The `group` builder: resolves the metadata's `name` to an existing group
    of the route's host. It never creates a group.
   */
  function GroupFactory(gw: Gateway, c: BuilderContext): (r: Result<Endpoint, Error>)
    ensures StringField(c.metadata, "name").None? ==> r == Failure(MissingGroupName)
    ensures StringField(c.metadata, "name") == Some("") ==> r == Failure(EmptyGroupName)
    ensures StringField(c.metadata, "name").Some? && StringField(c.metadata, "name").value != "" ==>
              && (c.route.host !in gw.managers ==> r == Failure(NoHostForGroup(c.route.host)))
              && (c.route.host in gw.managers && StringField(c.metadata, "name").value !in gw.managers[c.route.host] ==>
                    r == Failure(NoBackendGroup(StringField(c.metadata, "name").value, c.route.host)))
              && (c.route.host in gw.managers && StringField(c.metadata, "name").value in gw.managers[c.route.host] ==>
                    r == Success(GroupRef(c.route.host, StringField(c.metadata, "name").value)))
    // a success names a group that exists on the route's own host
    ensures r.Success? ==>
              && r.value.GroupRef?
              && r.value.host == c.route.host
              && StringField(c.metadata, "name") == Some(r.value.name)
              && c.route.host in gw.managers
              && r.value.name in gw.managers[c.route.host]
  {
    match StringField(c.metadata, "name")
    case None => Failure(MissingGroupName)
    case Some(name) =>
      if name == "" then Failure(EmptyGroupName)
      else if c.route.host !in gw.managers then Failure(NoHostForGroup(c.route.host))
      else if name !in gw.managers[c.route.host] then Failure(NoBackendGroup(name, c.route.host))
      else Success(GroupRef(c.route.host, name))
  }

  /** The HTTP configuration the `http` builder passes on: the context's descriptor and the optional probe URL. */
  function ProbeConfig(req: HttpRequest, hc: HealthCheck): (conf: HttpConfig)
    ensures conf.healthCheck == hc
    ensures conf.probeUrl.Some? <==> req.checkUrl != ""
    ensures conf.probeUrl.Some? ==> conf.probeUrl.value == req.checkUrl
  {
    HttpConfig(hc, if req.checkUrl != "" then Some(req.checkUrl) else None)
  }

  /**
    The `http` builder: decodes the metadata, requires a URL, and wraps the
    HTTP backend built from method and URL in the QPS limiter.
   */
  function HttpFactory(env: Env, c: BuilderContext): (r: Result<Endpoint, Error>)
    ensures env.decodeHttp(c.metadata).Failure? ==> r == Failure(env.decodeHttp(c.metadata).error)
    ensures env.decodeHttp(c.metadata).Success? && env.decodeHttp(c.metadata).value.url == "" ==>
              r == Failure(MissingUrl)
    ensures env.decodeHttp(c.metadata).Success? && env.decodeHttp(c.metadata).value.url != "" ==>
              var req := env.decodeHttp(c.metadata).value;
              var conf := ProbeConfig(req, c.healthCheck);
              && (env.httpBackendError(req.httpMethod, req.url, conf).Some? ==>
                    r == Failure(env.httpBackendError(req.httpMethod, req.url, conf).value))
              && (env.httpBackendError(req.httpMethod, req.url, conf).None? ==>
                    r == Success(Qps(req.qps, Http(req.httpMethod, req.url, conf))))
    ensures r.Success? ==>
              && env.decodeHttp(c.metadata).Success?
              && var req := env.decodeHttp(c.metadata).value;
              && req.url != ""
              && r.value == Qps(req.qps, Http(req.httpMethod, req.url, ProbeConfig(req, c.healthCheck)))
              && env.httpBackendError(req.httpMethod, req.url, ProbeConfig(req, c.healthCheck)).None?
  {
    match env.decodeHttp(c.metadata)
    case Failure(e) => Failure(e)
    case Success(req) =>
      if req.url == "" then Failure(MissingUrl)
      else
        var conf := ProbeConfig(req, c.healthCheck);
        match env.httpBackendError(req.httpMethod, req.url, conf)
        case Some(e) => Failure(e)
        case None => Success(Qps(req.qps, Http(req.httpMethod, req.url, conf)))
  }

  /** The registry as the package's init leaves it: the `group` and `http` builders. */
  function Builtins(env: Env): (reg: Registry)
    ensures reg.Keys == {"group", "http"}
    ensures forall gw, c :: reg["group"](gw, c) == GroupFactory(gw, c) && reg["http"](gw, c) == HttpFactory(env, c)
  {
    map["group" := GroupFactory, "http" := (gw: Gateway, c: BuilderContext) => HttpFactory(env, c)]
  }

  /** Every factory's outcome depends on the gateway's group managers only, not on its routes. */
  ghost predicate ReadsOnlyGroups(reg: Registry)
  {
    forall k, g1: Gateway, g2: Gateway, c: BuilderContext ::
      k in reg && g1.managers == g2.managers ==> reg[k](g1, c) == reg[k](g2, c)
  }

  /**
    Every group-typed endpoint a factory returns is an existing group of the
    host it was built for (the `group` builder's guarantee).
   */
  ghost predicate ResolvesGroupsOnOwnHost(reg: Registry)
  {
    forall k, g: Gateway, c: BuilderContext ::
      k in reg && reg[k](g, c).Success? && reg[k](g, c).value.GroupRef? ==>
        && reg[k](g, c).value.host == c.route.host
        && c.route.host in g.managers
        && reg[k](g, c).value.name in g.managers[c.route.host]
  }

  /** The built-in builders read only group managers and resolve only existing groups of their own host. */
  lemma BuiltinsAreWellBehaved(env: Env)
    ensures ReadsOnlyGroups(Builtins(env))
    ensures ResolvesGroupsOnOwnHost(Builtins(env))
  {
    var reg := Builtins(env);
    forall k, g1: Gateway, g2: Gateway, c: BuilderContext | k in reg && g1.managers == g2.managers
      ensures reg[k](g1, c) == reg[k](g2, c)
    {
      if k == "group" {
        assert reg[k](g1, c) == GroupFactory(g1, c);
        assert reg[k](g2, c) == GroupFactory(g2, c);
      }
    }
    forall k, g: Gateway, c: BuilderContext | k in reg && reg[k](g, c).Success? && reg[k](g, c).value.GroupRef?
      ensures reg[k](g, c).value.host == c.route.host && c.route.host in g.managers
      ensures reg[k](g, c).value.name in g.managers[c.route.host]
    {
      if k == "group" {
        assert reg[k](g, c) == GroupFactory(g, c);
      } else {
        assert false;
      }
    }
  }

  /** With such a registry, converting against two gateways with the same group managers gives the same result. */
  lemma ConvertAllSameGroups(env: Env, reg: Registry, g1: Gateway, g2: Gateway, bs: seq<BackendSpec>, route: Route)
    requires ReadsOnlyGroups(reg)
    requires g1.managers == g2.managers
    ensures ConvertAll(env, reg, g1, bs, route) == ConvertAll(env, reg, g2, bs, route)
  {
    forall i | 0 <= i < |bs|
      ensures Convert(env, reg, g1, bs[i], route) == Convert(env, reg, g2, bs[i], route)
    {
      var b := bs[i];
      if HealthCheckOf(env, b).Success? && b.kind in reg {
        var c := BuilderContext(route, b.metadata, HealthCheckOf(env, b).value);
        assert reg[b.kind](g1, c) == reg[b.kind](g2, c);
      }
    }
    MapAllCongruent(b => Convert(env, reg, g1, b, route), b => Convert(env, reg, g2, b, route), bs);
  }

  /** With such a registry, every converted group-typed backend is an existing group of the route's host. */
  lemma ConvertAllResolvesGroups(env: Env, reg: Registry, gw: Gateway, bs: seq<BackendSpec>, route: Route)
    requires ResolvesGroupsOnOwnHost(reg)
    requires ConvertAll(env, reg, gw, bs, route).Success?
    ensures forall x :: x in ConvertAll(env, reg, gw, bs, route).value && x.endpoint.GroupRef? ==>
              x.endpoint.host == route.host && route.host in gw.managers && x.endpoint.name in gw.managers[route.host]
  {
    var out := ConvertAll(env, reg, gw, bs, route).value;
    forall x | x in out && x.endpoint.GroupRef?
      ensures x.endpoint.host == route.host && route.host in gw.managers && x.endpoint.name in gw.managers[route.host]
    {
      var i :| 0 <= i < |out| && out[i] == x;
      var b := bs[i];
      assert Convert(env, reg, gw, b, route) == Success(x);
      var c := BuilderContext(route, b.metadata, x.healthCheck);
      assert reg[b.kind](gw, c) == Success(x.endpoint);
    }
  }

  /**
    A backend converted by the built-in `http` builder is the QPS wrapper
    around an HTTP backend for the decoded method and URL, and the HTTP
    backend's configuration carries the very descriptor the conversion
    attached.
   */
  lemma HttpConversionCarriesDescriptor(env: Env, gw: Gateway, b: BackendSpec, route: Route)
    requires b.kind == "http"
    requires Convert(env, Builtins(env), gw, b, route).Success?
    ensures var x := Convert(env, Builtins(env), gw, b, route).value;
            && env.decodeHttp(b.metadata).Success?
            && var req := env.decodeHttp(b.metadata).value;
            && x.endpoint == Qps(req.qps, Http(req.httpMethod, req.url, ProbeConfig(req, x.healthCheck)))
            && x.endpoint.next.conf.healthCheck == x.healthCheck
            && x.healthCheck == HealthCheckOf(env, b).value
  {
    var x := Convert(env, Builtins(env), gw, b, route).value;
    var c := BuilderContext(route, b.metadata, x.healthCheck);
    assert Builtins(env)["http"](gw, c) == HttpFactory(env, c);
  }
}

=== FILE: foreign.dfy ===
/**
  Code the model calls but does not reimplement: standard-library and
  third-party functions, the library's accessors on a resolved backend, and
  the one process-wide setting the handlers read. Each is a parameter of
  the model, so every property proved below holds for all of them.
 */
module Foreign {
  import opened Results
  import opened Types

  datatype Env = Env(
    // time.ParseDuration
    parseDuration: string -> Result<Duration, Error>,
    // time.Duration.String
    formatDuration: Duration -> string,
    // mapstructure.Decode of the metadata into the `http` builder's request
    decodeHttp: Metadata -> Result<HttpRequest, Error>,
    // the failure, if any, of backend.NewHTTPBackend(method, url, config)
    httpBackendError: (string, string, HttpConfig) -> Option<Error>,
    // lb.Backend.String of the backend built from an endpoint and a descriptor
    backendString: (Endpoint, HealthCheck) -> string,
    // lb.Backend.Type and lb.Backend.MetaData
    typeOf: LiveBackend -> string,
    metadataOf: LiveBackend -> Metadata,
    // apigw.Route.Name
    routeName: Route -> string,
    // DefaultForwarderMaxTimeout, set from the "maxtimeout" option at start-up
    defaultMaxTimeout: Duration
  )
}

=== FILE: gateway.dfy ===
/**
  The external gateway library (lb.DefaultGateway and what hangs off it) as
  abstract state, with only the calls the admin handlers and the `group`
  builder make. Its internals (routing trie, load balancer, session manager,
  health checker, updater tracking) are not modelled. The library's code is
  not part of this model: the behaviour of each operation below is an
  assumption, the least the handlers' use of it needs.
 */
module Gateway {
  import opened Results
  import opened Types
  import opened Pool

  /**
    A named backend pool of one host. `updaters` names the forwarders that
    depend on it; the handlers only read it, and how the library maintains
    it is not part of this model.
   */
  datatype Group = Group(backends: seq<LiveBackend>, updaters: seq<string>) {

    /** BackendGroup.AddBackend, called once per backend in list order. */
    function AddBackends(bs: seq<LiveBackend>): (g: Group)
      ensures Identities(g.backends) == Identities(backends) + Identities(bs)
      ensures backends <= g.backends
      ensures forall x :: x in g.backends ==> x in backends || x in bs
      ensures g.updaters == updaters
    {
      Group(AttachAll(backends, bs), updaters)
    }

    /** BackendGroup.DelBackend, called once per backend in list order. */
    function DelBackends(bs: seq<LiveBackend>): (g: Group)
      ensures forall x :: x in g.backends <==> x in backends && x.id !in Identities(bs)
      ensures g.updaters == updaters
    {
      Group(DetachAll(backends, bs), updaters)
    }
  }

  /** lb's per-host backend group manager: group name to group (names are unique per host). */
  type Manager = map<string, Group>

  /** Manager.AddOrNewBackendGroup: the named group, created empty when absent. */
  function AddOrNewGroup(m: Manager, name: string): (r: Manager)
    ensures r.Keys == m.Keys + {name}
    ensures forall n :: n in m ==> r[n] == m[n]
    ensures name !in m ==> r[name].backends == [] && r[name].updaters == []
  {
    if name in m then m else m[name := Group([], [])]
  }

  /**
    Manager.DelBackendGroupByName: removing an absent name changes nothing.
    What the library does to the forwarders that hold the removed group is
    not visible from the handlers; this model assumes it leaves them alone.
   */
  function DelGroupByName(m: Manager, name: string): (r: Manager)
    ensures r.Keys == m.Keys - {name}
    ensures forall n :: n in r ==> r[n] == m[n]
  {
    m - {name}
  }

  /** lb.Forwarder: the per-route dispatcher and the backends it forwards to. */
  datatype Forwarder = Forwarder(name: string, maxTimeout: Duration, backends: seq<LiveBackend>) {

    /** Forwarder.AddBackends. */
    function AddBackends(bs: seq<LiveBackend>): (f: Forwarder)
      ensures Identities(f.backends) == Identities(backends) + Identities(bs)
      ensures backends <= f.backends
      ensures forall x :: x in f.backends ==> x in backends || x in bs
      ensures f.name == name && f.maxTimeout == maxTimeout
    {
      this.(backends := AttachAll(backends, bs))
    }

    /** Forwarder.DelBackends. */
    function DelBackends(bs: seq<LiveBackend>): (f: Forwarder)
      ensures forall x :: x in f.backends <==> x in backends && x.id !in Identities(bs)
      ensures f.name == name && f.maxTimeout == maxTimeout
    {
      this.(backends := DetachAll(backends, bs))
    }
  }

  /**
    The gateway: each known host has exactly one group manager, and each
    registered route owns one forwarder.
   */
  datatype Gateway = Gateway(managers: map<string, Manager>, routes: map<Route, Forwarder>)

  /** Every registered route belongs to a known host. */
  ghost predicate HostsKnown(gw: Gateway)
  {
    forall r :: r in gw.routes ==> r.host in gw.managers
  }

  /**
    Every group-typed backend of a route's forwarder names a group that
    exists on that route's own host. References are by (host, name): a group
    created again under a deleted group's name counts as the same group.
   */
  ghost predicate GroupRefsResolve(gw: Gateway)
  {
    forall r, b :: r in gw.routes && b in gw.routes[r].backends && b.endpoint.GroupRef? ==>
      && b.endpoint.host == r.host
      && r.host in gw.managers
      && b.endpoint.name in gw.managers[r.host]
  }

  /** Gateway.GetBackendGroupManager: None stands for the nil manager of an unknown host. */
  function GetBackendGroupManager(gw: Gateway, host: string): (r: Option<Manager>)
    ensures r.Some? <==> host in gw.managers
    ensures r.Some? ==> r.value == gw.managers[host]
  {
    if host in gw.managers then Some(gw.managers[host]) else None
  }

  /** The gateway with the manager of `host` replaced by `m`. */
  function WithManager(gw: Gateway, host: string, m: Manager): (r: Gateway)
    ensures r.routes == gw.routes
    ensures r.managers.Keys == gw.managers.Keys + {host}
    ensures r.managers[host] == m
    ensures forall h :: h in gw.managers && h != host ==> r.managers[h] == gw.managers[h]
  {
    gw.(managers := gw.managers[host := m])
  }

  /**
    How the library classifies a route reference: an empty path, a host with
    no manager, and an unregistered triple each have their own sentinel.
   */
  function LookupRoute(gw: Gateway, route: Route): (r: Option<Error>)
    ensures r == None <==> route in gw.routes && route.path != "" && route.host in gw.managers
    ensures r.Some? ==> r.value in {ErrEmptyPath, ErrNoHost, ErrNoRoute}
  {
    if route.path == "" then Some(ErrEmptyPath)
    else if route.host !in gw.managers then Some(ErrNoHost)
    else if route !in gw.routes then Some(ErrNoRoute)
    else None
  }

  /**
    Gateway.RegisterRoute: refuses an empty path and a triple already
    registered; otherwise installs the forwarder, creating the host (with an
    empty group manager) on its first route.
   */
  function RegisterRoute(gw: Gateway, route: Route, fwd: Forwarder): (r: Result<Gateway, Error>)
    ensures r.Failure? <==> route.path == "" || route in gw.routes
    ensures r.Success? ==> r.value.routes == gw.routes[route := fwd]
    ensures r.Success? ==> r.value.managers.Keys == gw.managers.Keys + {route.host}
    ensures r.Success? ==> forall h :: h in gw.managers ==> r.value.managers[h] == gw.managers[h]
    ensures r.Success? && route.host !in gw.managers ==> r.value.managers[route.host] == map[]
  {
    if route.path == "" then Failure(ErrEmptyPath)
    else if route in gw.routes then Failure(ErrRouteExists(route))
    else
      var managers := if route.host in gw.managers then gw.managers else gw.managers[route.host := map[]];
      Success(Gateway(managers, gw.routes[route := fwd]))
  }

  /** Gateway.UnregisterRoute: drops a registered route and its forwarder. */
  function UnregisterRoute(gw: Gateway, route: Route): (r: Result<Gateway, Error>)
    ensures r.Failure? <==> LookupRoute(gw, route).Some?
    ensures r.Failure? ==> r.error == LookupRoute(gw, route).value
    ensures r.Success? ==> r.value == gw.(routes := gw.routes - {route})
  {
    match LookupRoute(gw, route)
    case Some(e) => Failure(e)
    case None => Success(gw.(routes := gw.routes - {route}))
  }

  /** Gateway.GetRouteBackends: the backends of a registered route's forwarder. */
  function GetRouteBackends(gw: Gateway, route: Route): (r: Result<seq<LiveBackend>, Error>)
    ensures r.Failure? <==> LookupRoute(gw, route).Some?
    ensures r.Failure? ==> r.error == LookupRoute(gw, route).value
    ensures r.Success? ==> r.value == gw.routes[route].backends
  {
    match LookupRoute(gw, route)
    case Some(e) => Failure(e)
    case None => Success(gw.routes[route].backends)
  }

  /** Gateway.AddRouteBackends: adds to a registered route's forwarder. */
  function AddRouteBackends(gw: Gateway, route: Route, bs: seq<LiveBackend>): (r: Result<Gateway, Error>)
    ensures r.Failure? <==> LookupRoute(gw, route).Some?
    ensures r.Failure? ==> r.error == LookupRoute(gw, route).value
    ensures r.Success? ==> r.value == gw.(routes := gw.routes[route := gw.routes[route].AddBackends(bs)])
  {
    match LookupRoute(gw, route)
    case Some(e) => Failure(e)
    case None => Success(gw.(routes := gw.routes[route := gw.routes[route].AddBackends(bs)]))
  }

  /** Gateway.DelRouteBackends: removes from a registered route's forwarder. */
  function DelRouteBackends(gw: Gateway, route: Route, bs: seq<LiveBackend>): (r: Result<Gateway, Error>)
    ensures r.Failure? <==> LookupRoute(gw, route).Some?
    ensures r.Failure? ==> r.error == LookupRoute(gw, route).value
    ensures r.Success? ==> r.value == gw.(routes := gw.routes[route := gw.routes[route].DelBackends(bs)])
  {
    match LookupRoute(gw, route)
    case Some(e) => Failure(e)
    case None => Success(gw.(routes := gw.routes[route := gw.routes[route].DelBackends(bs)]))
  }
}

=== FILE: handler_groups.dfy ===
/**
  The backend-group handlers: list or show a group, create or extend groups,
  and delete groups or members of groups, all under one host.
 */
module GroupHandlers {
  import opened Results
  import opened Types
  import opened Pool
  import opened Gateway
  import opened Foreign
  import opened Backend
  import opened Admin

  /** One element of the request's `backend_groups`. */
  datatype GroupEntry = GroupEntry(name: string, backends: seq<BackendSpec>)

  /** The body of the create and delete requests. */
  datatype GroupsRequest = GroupsRequest(host: string, groups: seq<GroupEntry>)

  /** The query of the show request; an empty `group` asks for the list of names. */
  datatype GroupQuery = GroupQuery(host: string, group: string)

  /** The route backends of a group are converted under: apigw.Route{Host: host}. */
  function HostOnly(host: string): Route
  {
    Route(host, "", "")
  }

  /** GetBackendGroup: read-only, so only the response is produced. */
  function GetBackendGroup(env: Env, gw: Gateway, req: Result<GroupQuery, Error>): (r: Response)
    ensures req.Failure? ==> r == BadRequest(Because(req.error))
    ensures req.Success? && req.value.host !in gw.managers ==> r == BadRequest(NoHostNamed(req.value.host))
    ensures req.Success? && req.value.host in gw.managers && req.value.group == "" ==>
              r == Ok(GroupNames(gw.managers[req.value.host].Keys))
    ensures req.Success? && req.value.host in gw.managers && req.value.group != "" &&
            req.value.group !in gw.managers[req.value.host] ==>
              r == BadRequest(NoGroupNamed(req.value.group))
    ensures req.Success? && req.value.host in gw.managers && req.value.group != "" &&
            req.value.group in gw.managers[req.value.host] ==>
              r.Ok? && r.body.GroupDetail?
    // a shown group lists every member, in order, and the forwarders depending on it
    ensures r.Ok? && r.body.GroupDetail? ==>
              && req.Success? && req.value.host in gw.managers
              && req.value.group in gw.managers[req.value.host]
              && var g := gw.managers[req.value.host][req.value.group];
              && |r.body.backends| == |g.backends|
              && (forall i :: 0 <= i < |g.backends| ==> r.body.backends[i] == Describe(env, g.backends[i]))
              && r.body.forwarders == g.updaters
  {
    match req
    case Failure(e) => BadRequest(Because(e))
    case Success(q) =>
      match GetBackendGroupManager(gw, q.host)
      case None => BadRequest(NoHostNamed(q.host))
      case Some(m) =>
        if q.group == "" then Ok(GroupNames(m.Keys))
        else if q.group !in m then BadRequest(NoGroupNamed(q.group))
        else Ok(GroupDetail(DescribeAll(env, m[q.group].backends), m[q.group].updaters))
  }

  /**
    One iteration of CreateBackendGroup's loop: convert the entry's backends
    (a `group` backend sees the groups created by earlier iterations), then
    get or create the group and add them.
   */
  function CreateStep(env: Env, reg: Registry, gw: Gateway, host: string, m: Manager, e: GroupEntry)
    : (r: Result<Manager, Error>)
    ensures r.Failure? <==> ConvertAll(env, reg, WithManager(gw, host, m), e.backends, HostOnly(host)).Failure?
    ensures r.Failure? ==> r.error == ConvertAll(env, reg, WithManager(gw, host, m), e.backends, HostOnly(host)).error
    ensures r.Success? ==> r.value.Keys == m.Keys + {e.name}
    ensures r.Success? ==> forall n :: n in m && n != e.name ==> r.value[n] == m[n]
    ensures r.Success? ==>
              var added := ConvertAll(env, reg, WithManager(gw, host, m), e.backends, HostOnly(host)).value;
              && Identities(r.value[e.name].backends) ==
                 (if e.name in m then Identities(m[e.name].backends) else {}) + Identities(added)
              && (e.name in m ==> m[e.name].backends <= r.value[e.name].backends)
              // nothing but the converted backends themselves is added, and the updaters are kept
              && (forall x :: x in r.value[e.name].backends ==> (e.name in m && x in m[e.name].backends) || x in added)
              && r.value[e.name].updaters == (if e.name in m then m[e.name].updaters else [])
  {
    match ConvertAll(env, reg, WithManager(gw, host, m), e.backends, HostOnly(host))
    case Failure(err) => Failure(err)
    case Success(bs) =>
      var m1 := AddOrNewGroup(m, e.name);
      Success(m1[e.name := m1[e.name].AddBackends(bs)])
  }

  function CreateSteps(env: Env, reg: Registry, gw: Gateway, host: string): (Manager, GroupEntry) -> Result<Manager, Error>
  {
    (m: Manager, e: GroupEntry) => CreateStep(env, reg, gw, host, m, e)
  }

  /** The host's manager as the first k entries of a create request leave it. */
  function CreatedBefore(env: Env, reg: Registry, gw: Gateway, host: string, m: Manager, es: seq<GroupEntry>, k: nat): Manager
    requires k <= |es|
  {
    Fold(CreateSteps(env, reg, gw, host), m, es[..k]).0
  }

  /**
    CreateBackendGroup: entries are processed in request order; the first
    conversion failure ends the request with 400, keeping what earlier
    entries did. Only the host's own manager can change.
   */
  function CreateBackendGroup(env: Env, reg: Registry, gw: Gateway, req: Result<GroupsRequest, Error>): (r: Reply)
    ensures req.Failure? ==> r == Reply(gw, BadRequest(Because(req.error)))
    ensures req.Success? && req.value.host !in gw.managers ==> r == Reply(gw, BadRequest(NoHostNamed(req.value.host)))
    ensures r.gw.routes == gw.routes
    ensures r.gw.managers.Keys == gw.managers.Keys
    ensures req.Success? ==> forall h :: h in gw.managers && h != req.value.host ==> r.gw.managers[h] == gw.managers[h]
    ensures r.response.Ok? ==> r.response == Ok(NoContent)
    ensures r.response.Ok? || (r.response.BadRequest? && (r.response.reason.Because? || r.response.reason.NoHostNamed?))
    // 200 exactly when every entry's backends convert, each seeing the groups the entries before it left
    ensures req.Success? && req.value.host in gw.managers ==>
              (r.response.Ok? <==>
                 forall k :: 0 <= k < |req.value.groups| ==>
                   ConvertAll(env, reg,
                              WithManager(gw, req.value.host,
                                          CreatedBefore(env, reg, gw, req.value.host, gw.managers[req.value.host], req.value.groups, k)),
                              req.value.groups[k].backends, HostOnly(req.value.host)).Success?)
  {
    match req
    case Failure(e) => Reply(gw, BadRequest(Because(e)))
    case Success(q) =>
      match GetBackendGroupManager(gw, q.host)
      case None => Reply(gw, BadRequest(NoHostNamed(q.host)))
      case Some(m) =>
        FoldCompletes(CreateSteps(env, reg, gw, q.host), m, q.groups);
        var (m', failure) := Fold(CreateSteps(env, reg, gw, q.host), m, q.groups);
        Reply(WithManager(gw, q.host, m'), if failure.None? then Ok(NoContent) else BadRequest(Because(failure.value)))
  }

  /** The names a list of entries mentions. */
  function Names(es: seq<GroupEntry>): set<string>
  {
    set e | e in es :: e.name
  }

  /** A run of steps, each adding exactly its entry's name, leaves the old names plus all the entries' names. */
  lemma {:induction false} FoldAddsNames(step: (Manager, GroupEntry) -> Result<Manager, Error>, m: Manager, es: seq<GroupEntry>)
    requires forall t, x :: step(t, x).Success? ==> step(t, x).value.Keys == t.Keys + {x.name}
    requires Fold(step, m, es).1.None?
    ensures Fold(step, m, es).0.Keys == m.Keys + Names(es)
    decreases |es|
  {
    if |es| > 0 {
      FoldAddsNames(step, step(m, es[0]).value, es[1..]);
      assert Names(es) == {es[0].name} + Names(es[1..]) by {
        assert es == [es[0]] + es[1..];
        assert forall x :: x in es <==> x == es[0] || x in es[1..];
      }
    } else {
      assert Names(es) == {};
    }
  }

  /** A create request answered 200 leaves a group under every name it mentions, and no other new one. */
  lemma CreateBackendGroupNamesAll(env: Env, reg: Registry, gw: Gateway, q: GroupsRequest)
    requires CreateBackendGroup(env, reg, gw, Success(q)).response.Ok?
    ensures q.host in gw.managers
    ensures CreateBackendGroup(env, reg, gw, Success(q)).gw.managers[q.host].Keys == gw.managers[q.host].Keys + Names(q.groups)
  {
    var step := CreateSteps(env, reg, gw, q.host);
    assert forall t, x :: step(t, x).Success? ==> step(t, x).value.Keys == t.Keys + {x.name};
    FoldAddsNames(step, gw.managers[q.host], q.groups);
  }

  /** After a create request answered 200, listing the host's groups shows the old names and every name the request mentioned. */
  lemma CreateThenListGroups(env: Env, reg: Registry, gw: Gateway, q: GroupsRequest)
    requires CreateBackendGroup(env, reg, gw, Success(q)).response.Ok?
    ensures GetBackendGroup(env, CreateBackendGroup(env, reg, gw, Success(q)).gw, Success(GroupQuery(q.host, ""))) ==
            Ok(GroupNames(gw.managers[q.host].Keys + Names(q.groups)))
  {
    CreateBackendGroupNamesAll(env, reg, gw, q);
  }

  /**
    No rollback: if entry k is the first whose backends fail to convert, the
    gateway keeps everything entries 0..k-1 did, entry k's group is neither
    created nor extended, and the reply is 400 with entry k's error.
   */
  lemma CreateBackendGroupNoRollback(env: Env, reg: Registry, gw: Gateway, q: GroupsRequest, k: nat)
    requires q.host in gw.managers
    requires k < |q.groups|
    requires Fold(CreateSteps(env, reg, gw, q.host), gw.managers[q.host], q.groups[..k]).1.None?
    requires var mk := Fold(CreateSteps(env, reg, gw, q.host), gw.managers[q.host], q.groups[..k]).0;
             ConvertAll(env, reg, WithManager(gw, q.host, mk), q.groups[k].backends, HostOnly(q.host)).Failure?
    ensures var mk := Fold(CreateSteps(env, reg, gw, q.host), gw.managers[q.host], q.groups[..k]).0;
            CreateBackendGroup(env, reg, gw, Success(q)) ==
            Reply(WithManager(gw, q.host, mk),
                  BadRequest(Because(ConvertAll(env, reg, WithManager(gw, q.host, mk), q.groups[k].backends, HostOnly(q.host)).error)))
  {
    var step := CreateSteps(env, reg, gw, q.host);
    var mk := Fold(step, gw.managers[q.host], q.groups[..k]).0;
    assert step(mk, q.groups[k]).Failure?;
    FoldStopsAt(step, gw.managers[q.host], q.groups, k);
  }

  /**
    One iteration of DeleteBackendGroup's loop: an entry without backends
    deletes the whole group by name; otherwise its backends are converted
    and removed from the group, or the entry is skipped when there is no
    such group.
   */
  function DeleteStep(env: Env, reg: Registry, gw: Gateway, host: string, m: Manager, e: GroupEntry)
    : (r: Result<Manager, Error>)
    ensures |e.backends| == 0 ==> r.Success? && r.value.Keys == m.Keys - {e.name}
    ensures |e.backends| == 0 ==> forall n :: n in r.value ==> r.value[n] == m[n]
    ensures |e.backends| > 0 ==>
              (r.Failure? <==> ConvertAll(env, reg, WithManager(gw, host, m), e.backends, HostOnly(host)).Failure?)
    ensures r.Failure? ==> r.error == ConvertAll(env, reg, WithManager(gw, host, m), e.backends, HostOnly(host)).error
    ensures |e.backends| > 0 && r.Success? ==>
              && r.value.Keys == m.Keys
              && (forall n :: n in m && n != e.name ==> r.value[n] == m[n])
              && (e.name !in m ==> r.value == m)
    ensures |e.backends| > 0 && r.Success? && e.name in m ==>
              var removed := ConvertAll(env, reg, WithManager(gw, host, m), e.backends, HostOnly(host)).value;
              forall x :: x in r.value[e.name].backends <==> x in m[e.name].backends && x.id !in Identities(removed)
  {
    if |e.backends| == 0 then Success(DelGroupByName(m, e.name))
    else
      match ConvertAll(env, reg, WithManager(gw, host, m), e.backends, HostOnly(host))
      case Failure(err) => Failure(err)
      case Success(bs) =>
        if e.name in m then Success(m[e.name := m[e.name].DelBackends(bs)]) else Success(m)
  }

  function DeleteSteps(env: Env, reg: Registry, gw: Gateway, host: string): (Manager, GroupEntry) -> Result<Manager, Error>
  {
    (m: Manager, e: GroupEntry) => DeleteStep(env, reg, gw, host, m, e)
  }

  /** The host's manager as the first k entries of a delete request leave it. */
  function DeletedBefore(env: Env, reg: Registry, gw: Gateway, host: string, m: Manager, es: seq<GroupEntry>, k: nat): Manager
    requires k <= |es|
  {
    Fold(DeleteSteps(env, reg, gw, host), m, es[..k]).0
  }

  /** DeleteBackendGroup: like CreateBackendGroup, in request order and without rollback. */
  function DeleteBackendGroup(env: Env, reg: Registry, gw: Gateway, req: Result<GroupsRequest, Error>): (r: Reply)
    ensures req.Failure? ==> r == Reply(gw, BadRequest(Because(req.error)))
    ensures req.Success? && req.value.host !in gw.managers ==> r == Reply(gw, BadRequest(NoHostNamed(req.value.host)))
    ensures r.gw.routes == gw.routes
    ensures r.gw.managers.Keys == gw.managers.Keys
    ensures req.Success? ==> forall h :: h in gw.managers && h != req.value.host ==> r.gw.managers[h] == gw.managers[h]
    ensures r.response.Ok? ==> r.response == Ok(NoContent)
    // 200 exactly when every entry that names backends has them convert, each seeing what the entries before it left
    ensures req.Success? && req.value.host in gw.managers ==>
              (r.response.Ok? <==>
                 forall k :: 0 <= k < |req.value.groups| && |req.value.groups[k].backends| > 0 ==>
                   ConvertAll(env, reg,
                              WithManager(gw, req.value.host,
                                          DeletedBefore(env, reg, gw, req.value.host, gw.managers[req.value.host], req.value.groups, k)),
                              req.value.groups[k].backends, HostOnly(req.value.host)).Success?)
  {
    match req
    case Failure(e) => Reply(gw, BadRequest(Because(e)))
    case Success(q) =>
      match GetBackendGroupManager(gw, q.host)
      case None => Reply(gw, BadRequest(NoHostNamed(q.host)))
      case Some(m) =>
        FoldCompletes(DeleteSteps(env, reg, gw, q.host), m, q.groups);
        var (m', failure) := Fold(DeleteSteps(env, reg, gw, q.host), m, q.groups);
        Reply(WithManager(gw, q.host, m'), if failure.None? then Ok(NoContent) else BadRequest(Because(failure.value)))
  }

  /** Deleting groups never creates one: the host's names can only shrink. */
  lemma DeleteBackendGroupOnlyShrinks(env: Env, reg: Registry, gw: Gateway, q: GroupsRequest)
    requires q.host in gw.managers
    ensures DeleteBackendGroup(env, reg, gw, Success(q)).gw.managers[q.host].Keys <= gw.managers[q.host].Keys
  {
    var m := gw.managers[q.host];
    FoldPreserves(DeleteSteps(env, reg, gw, q.host), (m': Manager) => m'.Keys <= m.Keys, m, q.groups);
  }

  /** No rollback for deletion either: entry k's conversion failure keeps what entries 0..k-1 removed. */
  lemma DeleteBackendGroupNoRollback(env: Env, reg: Registry, gw: Gateway, q: GroupsRequest, k: nat)
    requires q.host in gw.managers
    requires k < |q.groups| && |q.groups[k].backends| > 0
    requires Fold(DeleteSteps(env, reg, gw, q.host), gw.managers[q.host], q.groups[..k]).1.None?
    requires var mk := Fold(DeleteSteps(env, reg, gw, q.host), gw.managers[q.host], q.groups[..k]).0;
             ConvertAll(env, reg, WithManager(gw, q.host, mk), q.groups[k].backends, HostOnly(q.host)).Failure?
    ensures var mk := Fold(DeleteSteps(env, reg, gw, q.host), gw.managers[q.host], q.groups[..k]).0;
            DeleteBackendGroup(env, reg, gw, Success(q)) ==
            Reply(WithManager(gw, q.host, mk),
                  BadRequest(Because(ConvertAll(env, reg, WithManager(gw, q.host, mk), q.groups[k].backends, HostOnly(q.host)).error)))
  {
    var step := DeleteSteps(env, reg, gw, q.host);
    var mk := Fold(step, gw.managers[q.host], q.groups[..k]).0;
    assert step(mk, q.groups[k]).Failure?;
    FoldStopsAt(step, gw.managers[q.host], q.groups, k);
  }

  /**
    The handler deletes a group by name without looking at who uses it. With
    the library's delete assumed to leave forwarders alone (see
    DelGroupByName), a route whose forwarder holds the group keeps holding it
    after the group is gone.
   */
  lemma DeleteBackendGroupLeavesReferences(
    env: Env, reg: Registry, gw: Gateway, route: Route, b: LiveBackend, name: string)
    requires route in gw.routes && b in gw.routes[route].backends
    requires b.endpoint == GroupRef(route.host, name)
    requires route.host in gw.managers && name in gw.managers[route.host]
    ensures var r := DeleteBackendGroup(env, reg, gw, Success(GroupsRequest(route.host, [GroupEntry(name, [])])));
            && r.response == Ok(NoContent)
            && name !in r.gw.managers[route.host]
            && b in r.gw.routes[route].backends
            && !GroupRefsResolve(r.gw)
  {
    var entries := [GroupEntry(name, [])];
    var m := gw.managers[route.host];
    var step := DeleteSteps(env, reg, gw, route.host);
    assert step(m, entries[0]) == Success(DelGroupByName(m, name));
    assert entries[1..] == [];
    assert Fold(step, DelGroupByName(m, name), entries[1..]) == (DelGroupByName(m, name), None);
    assert Fold(step, m, entries) == (DelGroupByName(m, name), None);
  }

  /** After a group is deleted by name, showing it is refused as an unknown group. */
  lemma DeleteThenShowGroup(env: Env, reg: Registry, gw: Gateway, host: string, name: string)
    requires host in gw.managers && name != ""
    ensures var after := DeleteBackendGroup(env, reg, gw, Success(GroupsRequest(host, [GroupEntry(name, [])]))).gw;
            GetBackendGroup(env, after, Success(GroupQuery(host, name))) == BadRequest(NoGroupNamed(name))
  {
    var entries := [GroupEntry(name, [])];
    var m := gw.managers[host];
    var step := DeleteSteps(env, reg, gw, host);
    assert step(m, entries[0]) == Success(DelGroupByName(m, name));
    assert entries[1..] == [];
    assert Fold(step, m, entries) == (DelGroupByName(m, name), None);
  }

  /**
    A create request answered 200 leaves, for every entry, a group of that
    name holding every backend the entry converted to (later entries only add).
   */
  lemma CreateBackendGroupHoldsConverted(env: Env, reg: Registry, gw: Gateway, q: GroupsRequest, k: nat)
    requires CreateBackendGroup(env, reg, gw, Success(q)).response.Ok?
    requires k < |q.groups|
    ensures q.host in gw.managers
    ensures var mk := CreatedBefore(env, reg, gw, q.host, gw.managers[q.host], q.groups, k);
            var final := CreateBackendGroup(env, reg, gw, Success(q)).gw.managers[q.host];
            && ConvertAll(env, reg, WithManager(gw, q.host, mk), q.groups[k].backends, HostOnly(q.host)).Success?
            && q.groups[k].name in final
            && Identities(ConvertAll(env, reg, WithManager(gw, q.host, mk), q.groups[k].backends, HostOnly(q.host)).value)
               <= Identities(final[q.groups[k].name].backends)
  {
    var m := gw.managers[q.host];
    var step := CreateSteps(env, reg, gw, q.host);
    var e := q.groups[k];
    var mk := CreatedBefore(env, reg, gw, q.host, m, q.groups, k);
    var added := ConvertAll(env, reg, WithManager(gw, q.host, mk), e.backends, HostOnly(q.host)).value;
    FoldSplitAt(step, m, q.groups, k);
    var next := step(mk, e).value;
    var inv := (t: Manager) => e.name in t && Identities(added) <= Identities(t[e.name].backends);
    CreateStepHolds(env, reg, gw, q.host, mk, e);
    assert inv(next);
    forall t, x | inv(t) && step(t, x).Success?
      ensures inv(step(t, x).value)
    {
      CreateStepKeepsHeld(env, reg, gw, q.host, t, x, e.name, Identities(added));
    }
    FoldPreserves(step, inv, next, q.groups[k + 1..]);
  }

  /** The step for an entry leaves its group holding every identity the entry converted to. */
  lemma CreateStepHolds(env: Env, reg: Registry, gw: Gateway, host: string, m: Manager, e: GroupEntry)
    requires CreateStep(env, reg, gw, host, m, e).Success?
    ensures var r := CreateStep(env, reg, gw, host, m, e).value;
            && e.name in r
            && Identities(ConvertAll(env, reg, WithManager(gw, host, m), e.backends, HostOnly(host)).value)
               <= Identities(r[e.name].backends)
  {
  }

  /** A later step keeps a group and the identities it holds. */
  lemma CreateStepKeepsHeld(
    env: Env, reg: Registry, gw: Gateway, host: string, m: Manager, e: GroupEntry, name: string, ids: set<string>)
    requires name in m && ids <= Identities(m[name].backends)
    requires CreateSteps(env, reg, gw, host)(m, e).Success?
    ensures var r := CreateSteps(env, reg, gw, host)(m, e).value;
            name in r && ids <= Identities(r[name].backends)
  {
    assert CreateSteps(env, reg, gw, host)(m, e) == CreateStep(env, reg, gw, host, m, e);
  }

  /** A delete request answered 200 leaves no group under a name an entry without backends gave. */
  lemma DeleteBackendGroupRemovesNamed(env: Env, reg: Registry, gw: Gateway, q: GroupsRequest, k: nat)
    requires DeleteBackendGroup(env, reg, gw, Success(q)).response.Ok?
    requires k < |q.groups| && |q.groups[k].backends| == 0
    requires q.host in gw.managers
    ensures q.groups[k].name !in DeleteBackendGroup(env, reg, gw, Success(q)).gw.managers[q.host]
  {
    var m := gw.managers[q.host];
    var step := DeleteSteps(env, reg, gw, q.host);
    var e := q.groups[k];
    FoldSplitAt(step, m, q.groups, k);
    var mk := DeletedBefore(env, reg, gw, q.host, m, q.groups, k);
    var next := step(mk, e).value;
    var inv := (t: Manager) => e.name !in t;
    assert inv(next);
    forall t, x | inv(t) && step(t, x).Success?
      ensures inv(step(t, x).value)
    {
      assert step(t, x) == DeleteStep(env, reg, gw, q.host, t, x);
    }
    FoldPreserves(step, inv, next, q.groups[k + 1..]);
  }

  /**
    A delete request answered 200 leaves no member of an entry's group whose
    identity is among the backends that entry converted to.
   */
  lemma DeleteBackendGroupRemovesConverted(env: Env, reg: Registry, gw: Gateway, q: GroupsRequest, k: nat)
    requires DeleteBackendGroup(env, reg, gw, Success(q)).response.Ok?
    requires k < |q.groups| && |q.groups[k].backends| > 0
    requires q.host in gw.managers
    ensures var mk := DeletedBefore(env, reg, gw, q.host, gw.managers[q.host], q.groups, k);
            var final := DeleteBackendGroup(env, reg, gw, Success(q)).gw.managers[q.host];
            && ConvertAll(env, reg, WithManager(gw, q.host, mk), q.groups[k].backends, HostOnly(q.host)).Success?
            && (q.groups[k].name in final ==>
                  forall x :: x in final[q.groups[k].name].backends ==>
                    x.id !in Identities(ConvertAll(env, reg, WithManager(gw, q.host, mk), q.groups[k].backends, HostOnly(q.host)).value))
  {
    var m := gw.managers[q.host];
    var step := DeleteSteps(env, reg, gw, q.host);
    var e := q.groups[k];
    FoldSplitAt(step, m, q.groups, k);
    var mk := DeletedBefore(env, reg, gw, q.host, m, q.groups, k);
    var removed := ConvertAll(env, reg, WithManager(gw, q.host, mk), e.backends, HostOnly(q.host)).value;
    var next := step(mk, e).value;
    var inv := (t: Manager) => e.name in t ==> forall x :: x in t[e.name].backends ==> x.id !in Identities(removed);
    assert step(mk, e) == DeleteStep(env, reg, gw, q.host, mk, e);
    assert inv(next);
    forall t, x | inv(t) && step(t, x).Success?
      ensures inv(step(t, x).value)
    {
      assert step(t, x) == DeleteStep(env, reg, gw, q.host, t, x);
    }
    FoldPreserves(step, inv, next, q.groups[k + 1..]);
  }

  /**
    A run of steps, each leaving alone every group but its entry's, leaves a
    group that no entry names exactly as it was (present or absent alike).
   */
  lemma {:induction false} FoldKeepsUnnamed(
    step: (Manager, GroupEntry) -> Result<Manager, Error>, m: Manager, es: seq<GroupEntry>, n: string)
    requires forall t, x :: step(t, x).Success? && x.name != n ==>
               (n in step(t, x).value <==> n in t) && (n in t ==> step(t, x).value[n] == t[n])
    requires n !in Names(es)
    ensures n in Fold(step, m, es).0 <==> n in m
    ensures n in m ==> Fold(step, m, es).0[n] == m[n]
    decreases |es|
  {
    if |es| > 0 {
      assert es[0] in es;
      if step(m, es[0]).Success? {
        assert Names(es[1..]) <= Names(es) by {
          forall y | y in Names(es[1..]) ensures y in Names(es) {
            var e :| e in es[1..] && e.name == y;
            assert e in es;
          }
        }
        FoldKeepsUnnamed(step, step(m, es[0]).value, es[1..], n);
      }
    }
  }

  /** A create request, answered 200 or not, leaves every group no entry names exactly as it was. */
  lemma CreateBackendGroupKeepsUnnamed(env: Env, reg: Registry, gw: Gateway, q: GroupsRequest, n: string)
    requires q.host in gw.managers && n !in Names(q.groups)
    ensures var final := CreateBackendGroup(env, reg, gw, Success(q)).gw.managers[q.host];
            && (n in final <==> n in gw.managers[q.host])
            && (n in gw.managers[q.host] ==> final[n] == gw.managers[q.host][n])
  {
    var step := CreateSteps(env, reg, gw, q.host);
    forall t, x | step(t, x).Success? && x.name != n
      ensures (n in step(t, x).value <==> n in t) && (n in t ==> step(t, x).value[n] == t[n])
    {
      assert step(t, x) == CreateStep(env, reg, gw, q.host, t, x);
    }
    FoldKeepsUnnamed(step, gw.managers[q.host], q.groups, n);
  }

  /** A create request never drops a group or a member: every old group is still there, its old members a prefix of its list. */
  lemma CreateBackendGroupKeepsMembers(env: Env, reg: Registry, gw: Gateway, q: GroupsRequest, n: string)
    requires q.host in gw.managers && n in gw.managers[q.host]
    ensures var final := CreateBackendGroup(env, reg, gw, Success(q)).gw.managers[q.host];
            && n in final
            && gw.managers[q.host][n].backends <= final[n].backends
  {
    var m := gw.managers[q.host];
    var step := CreateSteps(env, reg, gw, q.host);
    var inv := (t: Manager) => n in t && m[n].backends <= t[n].backends;
    forall t, x | inv(t) && step(t, x).Success?
      ensures inv(step(t, x).value)
    {
      assert step(t, x) == CreateStep(env, reg, gw, q.host, t, x);
    }
    FoldPreserves(step, inv, m, q.groups);
  }

  /** A delete request, answered 200 or not, leaves every group no entry names exactly as it was. */
  lemma DeleteBackendGroupKeepsUnnamed(env: Env, reg: Registry, gw: Gateway, q: GroupsRequest, n: string)
    requires q.host in gw.managers && n !in Names(q.groups)
    ensures var final := DeleteBackendGroup(env, reg, gw, Success(q)).gw.managers[q.host];
            && (n in final <==> n in gw.managers[q.host])
            && (n in gw.managers[q.host] ==> final[n] == gw.managers[q.host][n])
  {
    var step := DeleteSteps(env, reg, gw, q.host);
    forall t, x | step(t, x).Success? && x.name != n
      ensures (n in step(t, x).value <==> n in t) && (n in t ==> step(t, x).value[n] == t[n])
    {
      assert step(t, x) == DeleteStep(env, reg, gw, q.host, t, x);
    }
    FoldKeepsUnnamed(step, gw.managers[q.host], q.groups, n);
  }

  /** A delete request never adds a member: whatever a group holds afterwards, it held before. */
  lemma DeleteBackendGroupOnlyRemoves(env: Env, reg: Registry, gw: Gateway, q: GroupsRequest)
    requires q.host in gw.managers
    ensures var m := gw.managers[q.host];
            var final := DeleteBackendGroup(env, reg, gw, Success(q)).gw.managers[q.host];
            forall n, x :: n in final && x in final[n].backends ==> n in m && x in m[n].backends
  {
    var m := gw.managers[q.host];
    var step := DeleteSteps(env, reg, gw, q.host);
    var inv := (t: Manager) => forall n, x :: n in t && x in t[n].backends ==> n in m && x in m[n].backends;
    forall t, e | inv(t) && step(t, e).Success?
      ensures inv(step(t, e).value)
    {
      assert step(t, e) == DeleteStep(env, reg, gw, q.host, t, e);
    }
    FoldPreserves(step, inv, m, q.groups);
  }

  /** Backend x is among those entry k of a create request converted to, against the groups entries 0..k-1 left. */
  predicate ConvertedBy(env: Env, reg: Registry, gw: Gateway, host: string, m: Manager, es: seq<GroupEntry>, k: nat, x: LiveBackend)
    requires k < |es|
  {
    var c := ConvertAll(env, reg, WithManager(gw, host, CreatedBefore(env, reg, gw, host, m, es, k)), es[k].backends, HostOnly(host));
    c.Success? && x in c.value
  }

  /** After the first j entries of a create request, every member was there before or was converted by one of them. */
  lemma {:induction false} CreatedBeforeOnlyAdds(
    env: Env, reg: Registry, gw: Gateway, host: string, m: Manager, es: seq<GroupEntry>, j: nat)
    requires j <= |es|
    ensures var t := CreatedBefore(env, reg, gw, host, m, es, j);
            forall n, x :: n in t && x in t[n].backends ==>
              (n in m && x in m[n].backends) || exists k :: 0 <= k < j && ConvertedBy(env, reg, gw, host, m, es, k, x)
    decreases j
  {
    if j > 0 {
      var i := j - 1;
      CreatedBeforeOnlyAdds(env, reg, gw, host, m, es, i);
      var step := CreateSteps(env, reg, gw, host);
      var before := CreatedBefore(env, reg, gw, host, m, es, i);
      var t := CreatedBefore(env, reg, gw, host, m, es, j);
      assert es[..j] == es[..i] + [es[i]];
      FoldAppend(step, m, es[..i], [es[i]]);
      assert [es[i]][1..] == [];
      if t != before {
        var e := es[i];
        assert step(before, e).Success? && t == step(before, e).value;
        assert step(before, e) == CreateStep(env, reg, gw, host, before, e);
        forall n, x | n in t && x in t[n].backends
          ensures (n in m && x in m[n].backends) || exists k :: 0 <= k < j && ConvertedBy(env, reg, gw, host, m, es, k, x)
        {
          if n != e.name || (e.name in before && x in before[e.name].backends) {
            assert n in before && x in before[n].backends;
          } else {
            assert ConvertedBy(env, reg, gw, host, m, es, i, x);
          }
        }
      }
    }
  }

  /**
    A create request adds nothing but converted backends: whatever reply it
    gets, every member afterwards was there before or is a backend some
    entry converted to.
   */
  lemma CreateBackendGroupOnlyAdds(env: Env, reg: Registry, gw: Gateway, q: GroupsRequest)
    requires q.host in gw.managers
    ensures var m := gw.managers[q.host];
            var final := CreateBackendGroup(env, reg, gw, Success(q)).gw.managers[q.host];
            forall n, x :: n in final && x in final[n].backends ==>
              (n in m && x in m[n].backends) ||
              exists k :: 0 <= k < |q.groups| && ConvertedBy(env, reg, gw, q.host, m, q.groups, k, x)
  {
    var m := gw.managers[q.host];
    assert q.groups[..|q.groups|] == q.groups;
    assert CreateBackendGroup(env, reg, gw, Success(q)).gw.managers[q.host] ==
           CreatedBefore(env, reg, gw, q.host, m, q.groups, |q.groups|);
    CreatedBeforeOnlyAdds(env, reg, gw, q.host, m, q.groups, |q.groups|);
  }
}

=== FILE: handler_routes.dfy ===
/**
  The route handlers: register and unregister a route, and list, add and
  remove the backends of a registered route's forwarder.
 */
module RouteHandlers {
  import opened Results
  import opened Types
  import opened Pool
  import opened Gateway
  import opened Foreign
  import opened Backend
  import opened Admin

  /** A route triple with a list of backends: the body of AddDomainRoute and of the route-backend handlers. */
  datatype RouteRequest = RouteRequest(route: Route, backends: seq<BackendSpec>)

  /** The handlers' own check of a route triple: path and method must be given. */
  predicate HasPathAndMethod(route: Route)
  {
    route.path != "" && route.httpMethod != ""
  }

  /**
    AddDomainRoute: check the triple, convert every backend, register the
    route with a fresh forwarder built with timeout 0, and only then attach
    the converted backends to it.
   */
  function AddDomainRoute(env: Env, reg: Registry, gw: Gateway, req: Result<RouteRequest, Error>): (r: Reply)
    ensures req.Failure? ==> r == Reply(gw, BadRequest(Because(req.error)))
    ensures req.Success? && !HasPathAndMethod(req.value.route) ==> r == Reply(gw, BadRequest(MissingPathOrMethod))
    ensures req.Success? && HasPathAndMethod(req.value.route) &&
            ConvertAll(env, reg, gw, req.value.backends, req.value.route).Failure? ==>
              r == Reply(gw, BadRequest(Because(ConvertAll(env, reg, gw, req.value.backends, req.value.route).error)))
    ensures req.Success? && HasPathAndMethod(req.value.route) &&
            ConvertAll(env, reg, gw, req.value.backends, req.value.route).Success? &&
            req.value.route in gw.routes ==>
              r == Reply(gw, BadRequest(Because(ErrRouteExists(req.value.route))))
    // any refusal leaves the gateway as it was
    ensures !r.response.Ok? ==> r.gw == gw && r.response.BadRequest?
    ensures r.response.Ok? <==>
              && req.Success? && HasPathAndMethod(req.value.route)
              && ConvertAll(env, reg, gw, req.value.backends, req.value.route).Success?
              && req.value.route !in gw.routes
    // on success the new route's forwarder holds exactly the converted backends, with the default timeout
    ensures r.response.Ok? ==>
              var route := req.value.route;
              var added := ConvertAll(env, reg, gw, req.value.backends, route).value;
              && r.response == Ok(NoContent)
              && r.gw.routes.Keys == gw.routes.Keys + {route}
              && (forall other :: other in gw.routes ==> r.gw.routes[other] == gw.routes[other])
              && r.gw.routes[route].name == env.routeName(route)
              && r.gw.routes[route].maxTimeout == env.defaultMaxTimeout
              && Identities(r.gw.routes[route].backends) == Identities(added)
              && (forall x :: x in r.gw.routes[route].backends ==> x in added)
              && r.gw.managers.Keys == gw.managers.Keys + {route.host}
              && (forall h :: h in gw.managers ==> r.gw.managers[h] == gw.managers[h])
              && (route.host !in gw.managers ==> r.gw.managers[route.host] == map[])
  {
    match req
    case Failure(e) => Reply(gw, BadRequest(Because(e)))
    case Success(q) =>
      if !HasPathAndMethod(q.route) then Reply(gw, BadRequest(MissingPathOrMethod))
      else
        match ConvertAll(env, reg, gw, q.backends, q.route)
        case Failure(e) => Reply(gw, BadRequest(Because(e)))
        case Success(bs) =>
          match RegisterRoute(gw, q.route, NewForwarder(env, env.routeName(q.route), 0))
          case Failure(e) => Reply(gw, BadRequest(Because(e)))
          case Success(registered) =>
            var fwd := registered.routes[q.route].AddBackends(bs);
            Reply(registered.(routes := registered.routes[q.route := fwd]), Ok(NoContent))
  }

  /** When the converted backends have distinct endpoints, the forwarder holds them in request order. */
  lemma AddDomainRouteKeepsOrder(env: Env, reg: Registry, gw: Gateway, q: RouteRequest)
    requires AddDomainRoute(env, reg, gw, Success(q)).response.Ok?
    requires Distinct(ConvertAll(env, reg, gw, q.backends, q.route).value)
    ensures AddDomainRoute(env, reg, gw, Success(q)).gw.routes[q.route].backends ==
            ConvertAll(env, reg, gw, q.backends, q.route).value
  {
    AttachAllFresh([], ConvertAll(env, reg, gw, q.backends, q.route).value);
  }

  /** Registering the same route a second time is refused and changes nothing. */
  lemma AddDomainRouteTwice(env: Env, reg: Registry, gw: Gateway, q: RouteRequest)
    requires AddDomainRoute(env, reg, gw, Success(q)).response.Ok?
    ensures var after := AddDomainRoute(env, reg, gw, Success(q)).gw;
            && AddDomainRoute(env, reg, after, Success(q)).response.BadRequest?
            && AddDomainRoute(env, reg, after, Success(q)).gw == after
  {
  }

  /**
    After a route is registered with backends of distinct identities, listing
    the route's backends renders exactly those backends, in request order.
   */
  lemma AddThenListRouteBackends(env: Env, reg: Registry, gw: Gateway, q: RouteRequest)
    requires AddDomainRoute(env, reg, gw, Success(q)).response.Ok?
    requires Distinct(ConvertAll(env, reg, gw, q.backends, q.route).value)
    ensures GetAllDomainRouteBackends(env, AddDomainRoute(env, reg, gw, Success(q)).gw, Success(q.route)) ==
            Ok(RouteBackends(DescribeAll(env, ConvertAll(env, reg, gw, q.backends, q.route).value)))
  {
    AddDomainRouteKeepsOrder(env, reg, gw, q);
  }

  /** DelDomainRoute: check the triple, then unregister; any library error is a 400 with that error. */
  function DelDomainRoute(gw: Gateway, req: Result<Route, Error>): (r: Reply)
    ensures req.Failure? ==> r == Reply(gw, BadRequest(Because(req.error)))
    ensures req.Success? && !HasPathAndMethod(req.value) ==> r == Reply(gw, BadRequest(MissingPathOrMethod))
    ensures req.Success? && HasPathAndMethod(req.value) && LookupRoute(gw, req.value).Some? ==>
              r == Reply(gw, BadRequest(Because(LookupRoute(gw, req.value).value)))
    ensures r.response.Ok? <==> req.Success? && HasPathAndMethod(req.value) && req.value in gw.routes && req.value.host in gw.managers
    ensures r.response.Ok? ==> r == Reply(gw.(routes := gw.routes - {req.value}), Ok(NoContent))
    ensures !r.response.Ok? ==> r.gw == gw && r.response.BadRequest?
  {
    match req
    case Failure(e) => Reply(gw, BadRequest(Because(e)))
    case Success(route) =>
      if !HasPathAndMethod(route) then Reply(gw, BadRequest(MissingPathOrMethod))
      else
        match UnregisterRoute(gw, route)
        case Failure(e) => Reply(gw, BadRequest(Because(e)))
        case Success(after) => Reply(after, Ok(NoContent))
  }

  /** Registering a route on a known host and unregistering it again restores the gateway exactly. */
  lemma AddThenDelDomainRoute(env: Env, reg: Registry, gw: Gateway, q: RouteRequest)
    requires AddDomainRoute(env, reg, gw, Success(q)).response.Ok?
    requires q.route.host in gw.managers
    ensures DelDomainRoute(AddDomainRoute(env, reg, gw, Success(q)).gw, Success(q.route)) == Reply(gw, Ok(NoContent))
  {
    var after := AddDomainRoute(env, reg, gw, Success(q)).gw;
    assert after.managers == gw.managers;
    assert after.routes - {q.route} == gw.routes;
  }

  /** GetAllDomainRouteBackends: read-only; library errors go through sendError. */
  function GetAllDomainRouteBackends(env: Env, gw: Gateway, req: Result<Route, Error>): (r: Response)
    ensures req.Failure? ==> r == BadRequest(Because(req.error))
    ensures req.Success? && LookupRoute(gw, req.value).Some? ==> r == SendError(req.value, LookupRoute(gw, req.value))
    ensures req.Success? ==> !r.InternalServerError?
    ensures r.Ok? <==> req.Success? && LookupRoute(gw, req.value).None?
    // the listing has one entry per backend, in the forwarder's order
    ensures r.Ok? ==>
              var bs := gw.routes[req.value].backends;
              && r.body.RouteBackends?
              && |r.body.backends| == |bs|
              && forall i :: 0 <= i < |bs| ==> r.body.backends[i] == Describe(env, bs[i])
  {
    match req
    case Failure(e) => BadRequest(Because(e))
    case Success(route) =>
      match GetRouteBackends(gw, route)
      case Failure(e) => SendError(route, Some(e))
      case Success(bs) => Ok(RouteBackends(DescribeAll(env, bs)))
  }

  /**
    AddDomainRouteBackend: an empty list succeeds at once without touching
    the gateway; otherwise convert, then add through the library, whose
    errors go through sendError.
   */
  function AddDomainRouteBackend(env: Env, reg: Registry, gw: Gateway, req: Result<RouteRequest, Error>): (r: Reply)
    ensures req.Failure? ==> r == Reply(gw, BadRequest(Because(req.error)))
    ensures req.Success? && |req.value.backends| == 0 ==> r == Reply(gw, Ok(NoContent))
    ensures req.Success? && |req.value.backends| > 0 &&
            ConvertAll(env, reg, gw, req.value.backends, req.value.route).Failure? ==>
              r == Reply(gw, BadRequest(Because(ConvertAll(env, reg, gw, req.value.backends, req.value.route).error)))
    ensures req.Success? && |req.value.backends| > 0 &&
            ConvertAll(env, reg, gw, req.value.backends, req.value.route).Success? &&
            LookupRoute(gw, req.value.route).Some? ==>
              r == Reply(gw, SendError(req.value.route, LookupRoute(gw, req.value.route)))
    ensures !r.response.Ok? ==> r.gw == gw && r.response.BadRequest?
    ensures r.response.Ok? ==> r.response == Ok(NoContent) && r.gw.managers == gw.managers
    // 200 exactly for an empty list, or for a list that converts on a registered route
    ensures r.response.Ok? <==>
              && req.Success?
              && (|req.value.backends| == 0 ||
                  (ConvertAll(env, reg, gw, req.value.backends, req.value.route).Success? &&
                   LookupRoute(gw, req.value.route).None?))
    // a non-empty addition changes only the route's forwarder, and only by adding the converted backends
    ensures r.response.Ok? && |req.value.backends| > 0 ==>
              var route := req.value.route;
              var added := ConvertAll(env, reg, gw, req.value.backends, route).value;
              && route in gw.routes
              && r.gw.routes.Keys == gw.routes.Keys
              && (forall other :: other in gw.routes && other != route ==> r.gw.routes[other] == gw.routes[other])
              && r.gw.routes[route].name == gw.routes[route].name
              && r.gw.routes[route].maxTimeout == gw.routes[route].maxTimeout
              && gw.routes[route].backends <= r.gw.routes[route].backends
              && Identities(r.gw.routes[route].backends) == Identities(gw.routes[route].backends) + Identities(added)
              && (forall x :: x in r.gw.routes[route].backends ==> x in gw.routes[route].backends || x in added)
  {
    match req
    case Failure(e) => Reply(gw, BadRequest(Because(e)))
    case Success(q) =>
      if |q.backends| == 0 then Reply(gw, Ok(NoContent))
      else
        match ConvertAll(env, reg, gw, q.backends, q.route)
        case Failure(e) => Reply(gw, BadRequest(Because(e)))
        case Success(bs) =>
          match AddRouteBackends(gw, q.route, bs)
          case Failure(e) => Reply(gw, SendError(q.route, Some(e)))
          case Success(after) => Reply(after, SendError(q.route, None))
  }

  /** DelDomainRouteBackend: the mirror image of AddDomainRouteBackend. */
  function DelDomainRouteBackend(env: Env, reg: Registry, gw: Gateway, req: Result<RouteRequest, Error>): (r: Reply)
    ensures req.Failure? ==> r == Reply(gw, BadRequest(Because(req.error)))
    ensures req.Success? && |req.value.backends| == 0 ==> r == Reply(gw, Ok(NoContent))
    ensures req.Success? && |req.value.backends| > 0 &&
            ConvertAll(env, reg, gw, req.value.backends, req.value.route).Failure? ==>
              r == Reply(gw, BadRequest(Because(ConvertAll(env, reg, gw, req.value.backends, req.value.route).error)))
    ensures req.Success? && |req.value.backends| > 0 &&
            ConvertAll(env, reg, gw, req.value.backends, req.value.route).Success? &&
            LookupRoute(gw, req.value.route).Some? ==>
              r == Reply(gw, SendError(req.value.route, LookupRoute(gw, req.value.route)))
    ensures !r.response.Ok? ==> r.gw == gw && r.response.BadRequest?
    ensures r.response.Ok? ==> r.response == Ok(NoContent) && r.gw.managers == gw.managers
    // 200 exactly for an empty list, or for a list that converts on a registered route
    ensures r.response.Ok? <==>
              && req.Success?
              && (|req.value.backends| == 0 ||
                  (ConvertAll(env, reg, gw, req.value.backends, req.value.route).Success? &&
                   LookupRoute(gw, req.value.route).None?))
    // a non-empty removal changes only the route's forwarder, and only by dropping the converted backends
    ensures r.response.Ok? && |req.value.backends| > 0 ==>
              var route := req.value.route;
              var removed := ConvertAll(env, reg, gw, req.value.backends, route).value;
              && route in gw.routes
              && r.gw.routes.Keys == gw.routes.Keys
              && (forall other :: other in gw.routes && other != route ==> r.gw.routes[other] == gw.routes[other])
              && r.gw.routes[route].name == gw.routes[route].name
              && r.gw.routes[route].maxTimeout == gw.routes[route].maxTimeout
              && (forall x :: x in r.gw.routes[route].backends <==>
                               x in gw.routes[route].backends && x.id !in Identities(removed))
  {
    match req
    case Failure(e) => Reply(gw, BadRequest(Because(e)))
    case Success(q) =>
      if |q.backends| == 0 then Reply(gw, Ok(NoContent))
      else
        match ConvertAll(env, reg, gw, q.backends, q.route)
        case Failure(e) => Reply(gw, BadRequest(Because(e)))
        case Success(bs) =>
          match DelRouteBackends(gw, q.route, bs)
          case Failure(e) => Reply(gw, SendError(q.route, Some(e)))
          case Success(after) => Reply(after, SendError(q.route, None))
  }

  /**
    Attaching a list of backends to a route with none and then detaching the
    same list restores the gateway, provided conversion reads only the group
    managers (true of the built-in builders).
   */
  lemma AddThenDelRouteBackends(env: Env, reg: Registry, gw: Gateway, q: RouteRequest)
    requires ReadsOnlyGroups(reg)
    requires q.route in gw.routes && gw.routes[q.route].backends == []
    requires AddDomainRouteBackend(env, reg, gw, Success(q)).response.Ok?
    ensures DelDomainRouteBackend(env, reg, AddDomainRouteBackend(env, reg, gw, Success(q)).gw, Success(q)) ==
            Reply(gw, Ok(NoContent))
  {
    if |q.backends| > 0 {
      var after := AddedState(env, reg, gw, q);
      DelUndoesAdd(env, reg, gw, after, q);
    }
  }

  lemma DelUndoesAdd(env: Env, reg: Registry, gw: Gateway, after: Gateway, q: RouteRequest)
    requires ReadsOnlyGroups(reg)
    requires |q.backends| > 0
    requires q.route in gw.routes && gw.routes[q.route].backends == []
    requires LookupRoute(gw, q.route).None?
    requires ConvertAll(env, reg, gw, q.backends, q.route).Success?
    requires after == gw.(routes := gw.routes[q.route := gw.routes[q.route].AddBackends(ConvertAll(env, reg, gw, q.backends, q.route).value)])
    ensures DelDomainRouteBackend(env, reg, after, Success(q)) == Reply(gw, Ok(NoContent))
  {
    ConvertAllSameGroups(env, reg, gw, after, q.backends, q.route);
    RemovedState(env, reg, after, q);
    RestoreRoute(gw, q.route, ConvertAll(env, reg, gw, q.backends, q.route).value);
  }

  /** Detaching from a route what was just attached to its empty forwarder restores the gateway. */
  lemma RestoreRoute(gw: Gateway, route: Route, bs: seq<LiveBackend>)
    requires route in gw.routes && gw.routes[route].backends == []
    ensures var a := gw.(routes := gw.routes[route := gw.routes[route].AddBackends(bs)]);
            a.(routes := a.routes[route := a.routes[route].DelBackends(bs)]) == gw
  {
    ForwarderRoundTrip(gw.routes[route], bs);
    var a := gw.(routes := gw.routes[route := gw.routes[route].AddBackends(bs)]);
    assert a.routes[route := a.routes[route].DelBackends(bs)] == gw.routes;
  }

  /** The state a successful non-empty AddDomainRouteBackend produces. */
  lemma AddedState(env: Env, reg: Registry, gw: Gateway, q: RouteRequest) returns (after: Gateway)
    requires |q.backends| > 0
    requires AddDomainRouteBackend(env, reg, gw, Success(q)).response.Ok?
    ensures ConvertAll(env, reg, gw, q.backends, q.route).Success?
    ensures LookupRoute(gw, q.route).None?
    ensures after == gw.(routes := gw.routes[q.route := gw.routes[q.route].AddBackends(ConvertAll(env, reg, gw, q.backends, q.route).value)])
    ensures AddDomainRouteBackend(env, reg, gw, Success(q)).gw == after
  {
    var bs := ConvertAll(env, reg, gw, q.backends, q.route).value;
    after := gw.(routes := gw.routes[q.route := gw.routes[q.route].AddBackends(bs)]);
  }

  /** The state a non-empty DelDomainRouteBackend produces on a registered route. */
  lemma RemovedState(env: Env, reg: Registry, gw: Gateway, q: RouteRequest)
    requires |q.backends| > 0
    requires ConvertAll(env, reg, gw, q.backends, q.route).Success?
    requires LookupRoute(gw, q.route).None?
    ensures DelDomainRouteBackend(env, reg, gw, Success(q)) ==
            Reply(gw.(routes := gw.routes[q.route := gw.routes[q.route].DelBackends(ConvertAll(env, reg, gw, q.backends, q.route).value)]),
                  Ok(NoContent))
  {
  }

  lemma ForwarderRoundTrip(f: Forwarder, bs: seq<LiveBackend>)
    requires f.backends == []
    ensures f.AddBackends(bs).DelBackends(bs) == f
  {
    DetachAllUndoesAttachAll(bs);
  }
}

=== FILE: invariants.dfy ===
/**
  The gateway invariants across the admin handlers: every route's host is
  known, and every group-typed backend of a forwarder names an existing group
  of that route's host. Every handler keeps both, except that deleting a
  group by name may leave a forwarder holding a group that is gone.
 */
module Invariants {
  import opened Results
  import opened Types
  import opened Pool
  import opened Gateway
  import opened Foreign
  import opened Backend
  import opened Admin
  import opened GroupHandlers
  import opened RouteHandlers

  /** Both invariants at once. */
  ghost predicate Consistent(gw: Gateway)
  {
    HostsKnown(gw) && GroupRefsResolve(gw)
  }

  /** Group names of every host only grow: nothing a group reference names can disappear. */
  ghost predicate GroupsGrow(gw: Gateway, gw': Gateway)
  {
    forall h :: h in gw.managers ==> h in gw'.managers && gw.managers[h].Keys <= gw'.managers[h].Keys
  }

  /** With the routes unchanged, growing group names keep both invariants. */
  lemma GroupsGrowKeepsConsistent(gw: Gateway, gw': Gateway)
    requires Consistent(gw)
    requires gw'.routes == gw.routes
    requires GroupsGrow(gw, gw')
    ensures Consistent(gw')
  {
  }

  /** CreateBackendGroup keeps both invariants: groups are created or extended, never removed. */
  lemma CreateBackendGroupKeepsConsistent(env: Env, reg: Registry, gw: Gateway, req: Result<GroupsRequest, Error>)
    requires Consistent(gw)
    ensures Consistent(CreateBackendGroup(env, reg, gw, req).gw)
  {
    var r := CreateBackendGroup(env, reg, gw, req);
    if req.Success? && req.value.host in gw.managers {
      var q := req.value;
      var m := gw.managers[q.host];
      var step := CreateSteps(env, reg, gw, q.host);
      FoldPreserves(step, (m': Manager) => m.Keys <= m'.Keys, m, q.groups);
      assert r.gw.managers[q.host] == Fold(step, m, q.groups).0;
      GroupsGrowKeepsConsistent(gw, r.gw);
    }
  }

  /** DeleteBackendGroup keeps every host known. */
  lemma DeleteBackendGroupKeepsHosts(env: Env, reg: Registry, gw: Gateway, req: Result<GroupsRequest, Error>)
    requires HostsKnown(gw)
    ensures HostsKnown(DeleteBackendGroup(env, reg, gw, req).gw)
  {
  }

  /**
    A delete request whose every entry names backends (so that no group is
    deleted by name) keeps group references resolving.
   */
  lemma DeleteBackendGroupMembersKeepsConsistent(env: Env, reg: Registry, gw: Gateway, q: GroupsRequest)
    requires Consistent(gw)
    requires forall i :: 0 <= i < |q.groups| ==> |q.groups[i].backends| > 0
    ensures Consistent(DeleteBackendGroup(env, reg, gw, Success(q)).gw)
  {
    var r := DeleteBackendGroup(env, reg, gw, Success(q));
    if q.host in gw.managers {
      var m := gw.managers[q.host];
      var step := DeleteSteps(env, reg, gw, q.host);
      KeysKeptByMemberDeletes(env, reg, gw, q.host, m, q.groups);
      assert r.gw.managers[q.host] == Fold(step, m, q.groups).0;
      GroupsGrowKeepsConsistent(gw, r.gw);
    }
  }

  /** Deleting members, never whole groups, keeps the manager's group names. */
  lemma {:induction false} KeysKeptByMemberDeletes(
    env: Env, reg: Registry, gw: Gateway, host: string, m: Manager, es: seq<GroupEntry>)
    requires forall i :: 0 <= i < |es| ==> |es[i].backends| > 0
    ensures Fold(DeleteSteps(env, reg, gw, host), m, es).0.Keys == m.Keys
    decreases |es|
  {
    var step := DeleteSteps(env, reg, gw, host);
    if |es| > 0 {
      assert |es[0].backends| > 0;
      if step(m, es[0]).Success? {
        KeysKeptByMemberDeletes(env, reg, gw, host, step(m, es[0]).value, es[1..]);
      }
    }
  }

  /** AddDomainRoute keeps both invariants when the builders resolve only existing groups of their own host. */
  lemma AddDomainRouteKeepsConsistent(env: Env, reg: Registry, gw: Gateway, req: Result<RouteRequest, Error>)
    requires ResolvesGroupsOnOwnHost(reg)
    requires Consistent(gw)
    ensures Consistent(AddDomainRoute(env, reg, gw, req).gw)
  {
    var r := AddDomainRoute(env, reg, gw, req);
    if r.response.Ok? {
      var q := req.value;
      var added := ConvertAll(env, reg, gw, q.backends, q.route).value;
      ConvertAllResolvesGroups(env, reg, gw, q.backends, q.route);
      forall rt, b | rt in r.gw.routes && b in r.gw.routes[rt].backends && b.endpoint.GroupRef?
        ensures b.endpoint.host == rt.host && rt.host in r.gw.managers && b.endpoint.name in r.gw.managers[rt.host]
      {
        if rt == q.route {
          assert b in added;
        } else {
          assert r.gw.routes[rt] == gw.routes[rt];
        }
      }
    }
  }

  /** DelDomainRoute keeps both invariants: it only drops a route. */
  lemma DelDomainRouteKeepsConsistent(gw: Gateway, req: Result<Route, Error>)
    requires Consistent(gw)
    ensures Consistent(DelDomainRoute(gw, req).gw)
  {
  }

  /** AddDomainRouteBackend keeps both invariants under the same condition on the builders. */
  lemma AddDomainRouteBackendKeepsConsistent(env: Env, reg: Registry, gw: Gateway, req: Result<RouteRequest, Error>)
    requires ResolvesGroupsOnOwnHost(reg)
    requires Consistent(gw)
    ensures Consistent(AddDomainRouteBackend(env, reg, gw, req).gw)
  {
    var r := AddDomainRouteBackend(env, reg, gw, req);
    if r.response.Ok? && |req.value.backends| > 0 {
      var q := req.value;
      var added := ConvertAll(env, reg, gw, q.backends, q.route).value;
      ConvertAllResolvesGroups(env, reg, gw, q.backends, q.route);
      forall rt, b | rt in r.gw.routes && b in r.gw.routes[rt].backends && b.endpoint.GroupRef?
        ensures b.endpoint.host == rt.host && rt.host in r.gw.managers && b.endpoint.name in r.gw.managers[rt.host]
      {
        if rt == q.route {
          assert b in gw.routes[rt].backends || b in added;
        } else {
          assert r.gw.routes[rt] == gw.routes[rt];
        }
      }
    }
  }

  /** DelDomainRouteBackend keeps both invariants: a forwarder only loses members. */
  lemma DelDomainRouteBackendKeepsConsistent(env: Env, reg: Registry, gw: Gateway, req: Result<RouteRequest, Error>)
    requires Consistent(gw)
    ensures Consistent(DelDomainRouteBackend(env, reg, gw, req).gw)
  {
    var r := DelDomainRouteBackend(env, reg, gw, req);
    if r.response.Ok? && |req.value.backends| > 0 {
      var q := req.value;
      forall rt, b | rt in r.gw.routes && b in r.gw.routes[rt].backends && b.endpoint.GroupRef?
        ensures b.endpoint.host == rt.host && rt.host in r.gw.managers && b.endpoint.name in r.gw.managers[rt.host]
      {
        if rt == q.route {
          assert b in gw.routes[rt].backends;
        } else {
          assert r.gw.routes[rt] == gw.routes[rt];
        }
      }
    }
  }
}

=== FILE: pool.dfy ===
/**
  The backend list behind a forwarder or a backend group. The gateway library
  keeps one member per identity (the backend's String()): adding a backend
  whose identity is already a member's changes nothing, and removing one
  whose identity is absent changes nothing.
 */
module Pool {
  import opened Types

  /** The identities a list holds. */
  function Identities(pool: seq<LiveBackend>): set<string>
  {
    set b | b in pool :: b.id
  }

  /** No identity occurs twice in the list. */
  predicate Distinct(pool: seq<LiveBackend>)
  {
    forall i, j :: 0 <= i < j < |pool| ==> pool[i].id != pool[j].id
  }

  lemma IdentitiesAppend(pool: seq<LiveBackend>, b: LiveBackend)
    ensures Identities(pool + [b]) == Identities(pool) + {b.id}
  {
    assert forall x :: x in pool + [b] <==> x in pool || x == b;
  }

  lemma IdentitiesCons(bs: seq<LiveBackend>)
    requires |bs| > 0
    ensures Identities(bs) == {bs[0].id} + Identities(bs[1..])
  {
    assert bs == [bs[0]] + bs[1..];
    assert forall x :: x in bs <==> x == bs[0] || x in bs[1..];
  }

  /** Forwarder.AddBackend / BackendGroup.AddBackend for one backend. */
  function Attach(pool: seq<LiveBackend>, b: LiveBackend): (r: seq<LiveBackend>)
    ensures Identities(r) == Identities(pool) + {b.id}
    ensures pool <= r
    ensures forall x :: x in r ==> x in pool || x == b
  {
    IdentitiesAppend(pool, b);
    if b.id in Identities(pool) then pool else pool + [b]
  }

  /** Adds the backends one after the other, in list order. */
  function AttachAll(pool: seq<LiveBackend>, bs: seq<LiveBackend>): (r: seq<LiveBackend>)
    ensures Identities(r) == Identities(pool) + Identities(bs)
    ensures pool <= r
    ensures forall x :: x in r ==> x in pool || x in bs
    decreases |bs|
  {
    if |bs| == 0 then pool
    else
      IdentitiesCons(bs);
      AttachAll(Attach(pool, bs[0]), bs[1..])
  }

  /** Forwarder.DelBackend / BackendGroup.DelBackend: drops the members with identity `key`. */
  function Detach(pool: seq<LiveBackend>, key: string): (r: seq<LiveBackend>)
    ensures forall x :: x in r <==> x in pool && x.id != key
    ensures key !in Identities(pool) ==> r == pool
    ensures |r| <= |pool|
  {
    if |pool| == 0 then []
    else if pool[0].id == key then Detach(pool[1..], key)
    else
      assert pool == [pool[0]] + pool[1..];
      [pool[0]] + Detach(pool[1..], key)
  }

  /** Removes the backends one after the other. */
  function DetachAll(pool: seq<LiveBackend>, bs: seq<LiveBackend>): (r: seq<LiveBackend>)
    ensures forall x :: x in r <==> x in pool && x.id !in Identities(bs)
    ensures Identities(pool) !! Identities(bs) ==> r == pool
    decreases |bs|
  {
    if |bs| == 0 then pool
    else
      IdentitiesCons(bs);
      DetachAll(Detach(pool, bs[0].id), bs[1..])
  }

  /** Removing the backends just added to an empty list leaves it empty again. */
  lemma {:induction false} DetachAllUndoesAttachAll(bs: seq<LiveBackend>)
    ensures DetachAll(AttachAll([], bs), bs) == []
  {
    var r := DetachAll(AttachAll([], bs), bs);
    assert Identities(r) == {};
    NoIdentitiesIsEmpty(r);
  }

  lemma NoIdentitiesIsEmpty(pool: seq<LiveBackend>)
    requires Identities(pool) == {}
    ensures pool == []
  {
    if pool != [] {
      FirstIsMember(pool);
      assert false;
    }
  }

  lemma FirstIsMember(pool: seq<LiveBackend>)
    requires pool != []
    ensures pool[0].id in Identities(pool)
  {
    assert pool[0] in pool;
  }

  /** Adding the same backends twice has the effect of adding them once. */
  lemma {:induction false} AttachAllIdempotent(pool: seq<LiveBackend>, bs: seq<LiveBackend>)
    ensures AttachAll(AttachAll(pool, bs), bs) == AttachAll(pool, bs)
  {
    var once := AttachAll(pool, bs);
    AttachAllKnown(once, bs);
  }

  /** Adding backends whose identities are all members' already changes nothing. */
  lemma {:induction false} AttachAllKnown(pool: seq<LiveBackend>, bs: seq<LiveBackend>)
    requires Identities(bs) <= Identities(pool)
    ensures AttachAll(pool, bs) == pool
    decreases |bs|
  {
    if |bs| > 0 {
      IdentitiesCons(bs);
      assert Attach(pool, bs[0]) == pool;
      AttachAllKnown(pool, bs[1..]);
    }
  }

  /** A list of distinct new identities is appended as given, order included. */
  lemma {:induction false} AttachAllFresh(pool: seq<LiveBackend>, bs: seq<LiveBackend>)
    requires Distinct(bs)
    requires Identities(pool) !! Identities(bs)
    ensures AttachAll(pool, bs) == pool + bs
    decreases |bs|
  {
    if |bs| > 0 {
      AttachFreshHead(pool, bs);
      AttachAllFresh(pool + [bs[0]], bs[1..]);
      AppendHead(pool, bs);
    }
  }

  /** One step of AttachAllFresh: the head is appended, and the rest stays distinct and fresh. */
  lemma AttachFreshHead(pool: seq<LiveBackend>, bs: seq<LiveBackend>)
    requires |bs| > 0 && Distinct(bs)
    requires Identities(pool) !! Identities(bs)
    ensures AttachAll(pool, bs) == AttachAll(pool + [bs[0]], bs[1..])
    ensures Distinct(bs[1..])
    ensures Identities(pool + [bs[0]]) !! Identities(bs[1..])
  {
    FirstIsMember(bs);
    assert Attach(pool, bs[0]) == pool + [bs[0]];
    FreshTail(pool, bs);
    DistinctTail(bs);
  }

  lemma AppendHead(pool: seq<LiveBackend>, bs: seq<LiveBackend>)
    requires |bs| > 0
    ensures pool + [bs[0]] + bs[1..] == pool + bs
  {
    assert bs == [bs[0]] + bs[1..];
  }

  /** After the head of a distinct fresh list is appended, the rest of the list is still fresh. */
  lemma FreshTail(pool: seq<LiveBackend>, bs: seq<LiveBackend>)
    requires |bs| > 0 && Distinct(bs)
    requires Identities(pool) !! Identities(bs)
    ensures Identities(pool + [bs[0]]) !! Identities(bs[1..])
  {
    IdentitiesAppend(pool, bs[0]);
    IdentitiesCons(bs);
    forall x | x in Identities(bs[1..])
      ensures x != bs[0].id
    {
      var b :| b in bs[1..] && b.id == x;
      var j :| 0 <= j < |bs[1..]| && bs[1..][j] == b;
      assert bs[j + 1] == b;
    }
  }

  lemma DistinctTail(bs: seq<LiveBackend>)
    requires |bs| > 0 && Distinct(bs)
    ensures Distinct(bs[1..])
  {
    forall i, j | 0 <= i < j < |bs[1..]|
      ensures bs[1..][i].id != bs[1..][j].id
    {
      assert bs[1..][i] == bs[i + 1] && bs[1..][j] == bs[j + 1];
    }
  }
}

=== FILE: results.dfy ===
/** Failure-carrying values shared by every module of the model. */
module Results {

  /** A value that may be absent; stands for Go's nil pointer or nil error. */
  datatype Option<+T> = None | Some(value: T)

  /** The `(value, error)` pair Go functions return, with exactly one side present. */
  datatype Result<+T, +E> = Success(value: T) | Failure(error: E)

  /**
    Applies `f` to the elements in order and stops at the first failure: the
    shape of every "convert each element or return the error" loop.
   */
  function MapAll<A, B, E>(f: A -> Result<B, E>, xs: seq<A>): (r: Result<seq<B>, E>)
    ensures r.Success? <==> forall i :: 0 <= i < |xs| ==> f(xs[i]).Success?
    ensures r.Success? ==> |r.value| == |xs|
    ensures r.Success? ==> forall i :: 0 <= i < |xs| ==> f(xs[i]) == Success(r.value[i])
    decreases |xs|
  {
    if |xs| == 0 then Success([])
    else
      match f(xs[0])
      case Failure(e) => Failure(e)
      case Success(first) =>
        match MapAll(f, xs[1..])
        case Failure(e) => Failure(e)
        case Success(rest) =>
          assert forall i :: 1 <= i < |xs| ==> xs[i] == xs[1..][i - 1];
          Success([first] + rest)
  }

  /** MapAll only looks at the values `f` takes on the list's elements. */
  lemma {:induction false} MapAllCongruent<A, B, E>(f: A -> Result<B, E>, g: A -> Result<B, E>, xs: seq<A>)
    requires forall i :: 0 <= i < |xs| ==> f(xs[i]) == g(xs[i])
    ensures MapAll(f, xs) == MapAll(g, xs)
    decreases |xs|
  {
    if |xs| > 0 {
      forall i | 0 <= i < |xs[1..]|
        ensures f(xs[1..][i]) == g(xs[1..][i])
      {
        assert xs[1..][i] == xs[i + 1];
      }
      MapAllCongruent(f, g, xs[1..]);
    }
  }

  /** A failing MapAll reports the error of its first failing element. */
  lemma {:induction false} MapAllFirstFailure<A, B, E>(f: A -> Result<B, E>, xs: seq<A>, k: nat)
    requires k < |xs|
    requires f(xs[k]).Failure?
    requires forall j :: 0 <= j < k ==> f(xs[j]).Success?
    ensures MapAll(f, xs) == Failure(f(xs[k]).error)
    decreases k
  {
    if k > 0 {
      assert f(xs[0]).Success?;
      assert xs[1..][k - 1] == xs[k];
      forall j | 0 <= j < k - 1
        ensures f(xs[1..][j]).Success?
      {
        assert xs[1..][j] == xs[j + 1];
      }
      MapAllFirstFailure(f, xs[1..], k - 1);
    }
  }

  /** Elements after a failure are never looked at. */
  lemma {:induction false} MapAllIgnoresRest<A, B, E>(f: A -> Result<B, E>, xs: seq<A>, ys: seq<A>)
    requires MapAll(f, xs).Failure?
    ensures MapAll(f, xs + ys) == MapAll(f, xs)
    decreases |xs|
  {
    assert (xs + ys)[0] == xs[0];
    assert (xs + ys)[1..] == xs[1..] + ys;
    if f(xs[0]).Success? {
      MapAllIgnoresRest(f, xs[1..], ys);
    }
  }

  /** MapAll over a concatenation is the concatenation of the two results. */
  lemma MapAllConcat<A, B, E>(f: A -> Result<B, E>, xs: seq<A>, ys: seq<A>)
    requires MapAll(f, xs).Success? && MapAll(f, ys).Success?
    ensures MapAll(f, xs + ys) == Success(MapAll(f, xs).value + MapAll(f, ys).value)
  {
    var left := MapAll(f, xs).value;
    var right := MapAll(f, ys).value;
    forall i | 0 <= i < |xs + ys|
      ensures f((xs + ys)[i]) == Success((left + right)[i])
    {
      if i < |xs| {
        assert (xs + ys)[i] == xs[i];
      } else {
        assert (xs + ys)[i] == ys[i - |xs|];
      }
    }
    var whole := MapAll(f, xs + ys);
    assert whole.Success?;
    assert forall i :: 0 <= i < |xs + ys| ==> whole.value[i] == (left + right)[i];
    assert whole.value == left + right;
  }

  /**
    Threads a state through `step` for each element in order and stops at
    the first failure, keeping the state reached so far: the shape of a
    handler loop that returns on error without undoing earlier iterations.
   */
  function Fold<S, A, E>(step: (S, A) -> Result<S, E>, s: S, xs: seq<A>): (r: (S, Option<E>))
    decreases |xs|
  {
    if |xs| == 0 then (s, None)
    else
      match step(s, xs[0])
      case Failure(e) => (s, Some(e))
      case Success(next) => Fold(step, next, xs[1..])
  }

  /** Folding a concatenation folds the first part, then (if it succeeded) the second from where it stopped. */
  lemma {:induction false} FoldAppend<S, A, E>(step: (S, A) -> Result<S, E>, s: S, xs: seq<A>, ys: seq<A>)
    ensures Fold(step, s, xs + ys) ==
            if Fold(step, s, xs).1.None? then Fold(step, Fold(step, s, xs).0, ys) else Fold(step, s, xs)
    decreases |xs|
  {
    if |xs| == 0 {
      assert xs + ys == ys;
    } else {
      assert (xs + ys)[0] == xs[0];
      assert (xs + ys)[1..] == xs[1..] + ys;
      if step(s, xs[0]).Success? {
        FoldAppend(step, step(s, xs[0]).value, xs[1..], ys);
      }
    }
  }

  /**
    No rollback: when element k is the first to fail, the result is the
    state the first k elements produced, together with element k's error.
   */
  lemma FoldStopsAt<S, A, E>(step: (S, A) -> Result<S, E>, s: S, xs: seq<A>, k: nat)
    requires k < |xs|
    requires Fold(step, s, xs[..k]).1.None?
    requires step(Fold(step, s, xs[..k]).0, xs[k]).Failure?
    ensures Fold(step, s, xs) ==
            (Fold(step, s, xs[..k]).0, Some(step(Fold(step, s, xs[..k]).0, xs[k]).error))
  {
    assert xs == xs[..k] + xs[k..];
    FoldAppend(step, s, xs[..k], xs[k..]);
    assert xs[k..][0] == xs[k];
  }

  /** A step-wise invariant holds of the state a fold ends in, whether or not it stopped early. */
  lemma {:induction false} FoldPreserves<S, A, E>(step: (S, A) -> Result<S, E>, inv: S -> bool, s: S, xs: seq<A>)
    requires inv(s)
    requires forall t, x :: inv(t) && step(t, x).Success? ==> inv(step(t, x).value)
    ensures inv(Fold(step, s, xs).0)
    decreases |xs|
  {
    if |xs| > 0 && step(s, xs[0]).Success? {
      FoldPreserves(step, inv, step(s, xs[0]).value, xs[1..]);
    }
  }

  /** A fold runs to the end exactly when every element's step succeeds from the state its predecessors left. */
  lemma {:induction false} FoldCompletes<S, A, E>(step: (S, A) -> Result<S, E>, s: S, xs: seq<A>)
    ensures Fold(step, s, xs).1.None? <==>
            forall k :: 0 <= k < |xs| ==> step(Fold(step, s, xs[..k]).0, xs[k]).Success?
    decreases |xs|
  {
    if |xs| > 0 {
      assert xs[..0] == [];
      if step(s, xs[0]).Success? {
        var s1 := step(s, xs[0]).value;
        FoldCompletes(step, s1, xs[1..]);
        forall k | 1 <= k < |xs|
          ensures Fold(step, s, xs[..k]) == Fold(step, s1, xs[1..][..k - 1])
          ensures xs[k] == xs[1..][k - 1]
        {
          assert xs[..k][0] == xs[0];
          assert xs[..k][1..] == xs[1..][..k - 1];
        }
      }
    }
  }

  /**
    In a fold that ran to the end, element k's step succeeded from the state
    its predecessors left, and the rest of the fold continues from its result.
   */
  lemma FoldSplitAt<S, A, E>(step: (S, A) -> Result<S, E>, s: S, xs: seq<A>, k: nat)
    requires k < |xs|
    requires Fold(step, s, xs).1.None?
    ensures Fold(step, s, xs[..k]).1.None?
    ensures step(Fold(step, s, xs[..k]).0, xs[k]).Success?
    ensures Fold(step, s, xs) == Fold(step, step(Fold(step, s, xs[..k]).0, xs[k]).value, xs[k + 1..])
  {
    assert xs == xs[..k] + xs[k..];
    FoldAppend(step, s, xs[..k], xs[k..]);
    assert xs[k..][0] == xs[k];
    assert xs[k..][1..] == xs[k + 1..];
  }
}

=== FILE: types.dfy ===
/**
  Values shared by the gateway library, the backend package and the admin
  handlers: durations, health-check descriptors, admin metadata, routes,
  resolved backends and the errors any of them can report.
 */
module Types {
  import opened Results

  /** time.Duration: a signed count of nanoseconds. Nothing here does arithmetic on it. */
  type Duration = int

  /**
    lb.HealthCheck: the per-backend health-check descriptor. A zero interval or
    timeout means "use the health checker's own default".
   */
  datatype HealthCheck = HealthCheck(interval: Duration, timeout: Duration, retryNum: int)

  /** One value of the admin's `metadata` object, as JSON decoding produces it. */
  datatype Value =
    | VString(s: string)
    | VNumber(n: real)
    | VBool(b: bool)
    | VNull
    | VComposite   // any array or object; no builder looks inside one

  type Metadata = map<string, Value>

  /** apigw.Route, reduced to the triple that identifies it. */
  datatype Route = Route(host: string, path: string, httpMethod: string)

  /**
    The configuration handed to the library's HTTP backend constructor: the
    descriptor from the builder context, and the liveness-probe URL when the
    admin supplied one (the probe itself is network I/O and is not modelled).
   */
  datatype HttpConfig = HttpConfig(healthCheck: HealthCheck, probeUrl: Option<string>)

  /** The fields the `http` builder decodes out of the admin metadata. */
  datatype HttpRequest = HttpRequest(qps: int, url: string, httpMethod: string, checkUrl: string)

  /** The live object one of the two built-in builders produces. */
  datatype Endpoint =
    | GroupRef(host: string, name: string)                     // an existing backend group of a host
    | Http(httpMethod: string, url: string, conf: HttpConfig)  // backend.NewHTTPBackend
    | Qps(qps: int, next: Endpoint)                            // backend.NewQPSBackend

  /**
    lb.NewBackendWithHealthCheck: a built endpoint carrying the descriptor it
    was built with, and `id`, the backend's String() as the library reports it.
    Pools tell their members apart by `id` alone: two backends are the same
    member exactly when their ids are equal, whatever their endpoints and
    descriptors.
   */
  datatype LiveBackend = LiveBackend(endpoint: Endpoint, healthCheck: HealthCheck, id: string)

  datatype Error =
    // sentinel errors of the apigw library, compared by identity in the handlers
    | ErrNoHost
    | ErrNoRoute
    | ErrEmptyPath
    // the library's refusal to register a route twice
    | ErrRouteExists(route: Route)
    // errors raised by the backend package
    | UnknownBackendType(kind: string)
    | MissingGroupName
    | EmptyGroupName
    | NoHostForGroup(host: string)
    | NoBackendGroup(name: string, host: string)
    | MissingUrl
    // an error produced by code outside the model (duration parsing, metadata
    // decoding, the HTTP backend constructor, request binding)
    | Foreign(message: string)
}
